=== FILE: README.md ===
# Library admin frontend: session gates, list pages and forms, in Dafny

This project models the decision logic of a Next.js library-administration
frontend. It covers:

- the four list pages (books, authors, publishers, users);
- the lend page and the dashboard;
- the add-book, add-author and add-user forms;
- login and signup;
- the public book search;
- the route guard and the sidebar.

Each page is modelled as pure functions. Their inputs are the browser's
`localStorage` (a map from keys to strings) and the settled HTTP reply. Their
outputs are the new storage, the page state, and the ordered list of effects
the page causes: a router push, an `alert`, an outgoing request, a delayed
push, or signing in through the auth context.

The main theme is the session. Pages read the composite `"user"` record, and
most fall back field by field on the scalar `"token"` and `"userRole"` keys.
Each page does this a little differently:

- the dashboard and the lend page never fall back;
- the users page also requires a role;
- login writes `"userId"` but never `"userRole"`;
- signup writes a lower-cased `"userRole"` that no admin check ever accepts;
- a 401 removes different keys on different pages.

The lemmas state how these gates relate to one another and what each write
or removal does to the next gate.

Modules, one per file:

- `Js`: JavaScript values, truthiness, `||`, `String(v)`, `trim`, `toLowerCase`.
- `Storage`: `localStorage`.
- `Http`: replies, requests, effects.
- `Session`: the shared mount-time gate.
- `Lists`: the four list pages.
- `Lend`: the lend page.
- `Dashboard`: the dashboard.
- `Forms`: the add-book, add-author and add-user forms.
- `Auth`: login and signup.
- `Search`: the public book search.
- `Guards`: the route guard and the sidebar.

Several platform functions are parameters rather than code: `JSON.parse`,
`JSON.stringify`, `encodeURIComponent`, `URLSearchParams.toString`,
`parseInt` and `Number`. A lemma that needs one of them to behave in a
particular way says so in its `requires`.

## Model

| member | source | states |
|---|---|---|
| Js.Trim | src/app/books/page.jsx:84 | the result is a contiguous slice of the input with only white space cut from each end, and it neither starts nor ends with white space |
| Js.TrimEmptyIffAllSpace | src/app/books/page.jsx:84-88 | a term trims to the empty string exactly when every character is ECMAScript white space or a line terminator |
| Js.Lower | src/app/signup/page.jsx:58 | lower-casing keeps the length, turns each upper-case ASCII letter into its lower-case partner, leaves no upper-case ASCII letter and changes no other character |
| Js.DigitsDenote | src/app/dashboard/page.jsx:68 | the decimal digits written for a status code read back as that number |
| Session.ReadComposite | src/app/books/page.jsx:19-33 | a missing or empty `"user"` item is skipped; text that fails to parse, or parses to null or undefined, is unreadable; otherwise the parsed record is used |
| Session.ResolveSession | src/app/users/page.jsx:16-43 | an unreadable record pushes to `/login`; the page proceeds exactly when the token (and, on the users page, the role) recovered from the record or the scalar key is truthy, and it uses those recovered values |
| Session.ResolveToken | src/app/books/add/page.jsx:17-41 | the add forms proceed only with a truthy token, recovered the same way |
| Session.CompositeWins | src/app/books/page.jsx:23-36 | when the record holds a truthy token and role, the scalar keys are never consulted, so rewriting them changes nothing |
| Session.ScalarTokenFallback | src/app/books/page.jsx:35-41 | when the record has no token, the page proceeds exactly when the scalar `"token"` is non-empty, and it uses that text |
| Session.RoleDoesNotBlock | src/app/authors/page.jsx:34-45 | on pages that need no role, writing or removing `"userRole"` never changes whether the page proceeds |
| Session.StricterGate | src/app/users/page.jsx:32-38 | whenever the users page proceeds, the other list pages proceed with the same token and role; the reverse fails exactly when no role is recoverable; the add forms agree with the list pages |
| Lists.ExpiredStore | src/app/users/page.jsx:58-63 | `clear()` empties storage; the other pages remove exactly `"user"` and `"token"`, leaving every other key unchanged |
| Lists.SearchUrl | src/app/books/page.jsx:82-91 | a search fetches the unfiltered collection exactly when the term is all white space; otherwise it sends the trimmed, encoded term under the chosen key |
| Lists.Mount | src/app/books/page.jsx:18-46 | a list page sends its GET exactly when the session gate proceeds, to the collection URL with the recovered bearer token; otherwise its one effect is the push to `/login` |
| Lists.FetchOutcome | src/app/books/page.jsx:48-80 | a 2xx answer replaces the rows; a 401 removes the page's keys and pushes to `/login`; any other status or a thrown fetch keeps rows and storage and raises the page's alert; the spinner always stops |
| Lists.Without | src/app/books/page.jsx:109 | the kept rows are exactly the rows whose id is not strictly equal to the deleted id |
| Lists.WithoutAppend | src/app/authors/page.jsx:122 | the delete filter works row by row, so it keeps the surviving rows in their original order |
| Lists.WithoutAbsent | src/app/publishers/page.jsx:134 | deleting an id that no row carries (NaN included) leaves the list unchanged |
| Lists.WithoutIdempotent | src/app/users/page.jsx:107 | filtering a second time by the same id removes nothing more |
| Lists.DeleteOutcome | src/app/authors/page.jsx:97-128 | a declined confirm does nothing; a confirmed delete sends the DELETE; success drops the row and alerts; a 401 (except on the books page) removes the page's keys and pushes to `/login`; anything else alerts the failure |
| Lists.ExpiryForcesLogin | src/app/authors/page.jsx:97-128 | after a 401 on any list fetch, or on a delete of a page that expires on delete, no list page or add form can proceed on its next mount; a 401 on the books page's delete keeps storage |
| Lists.ExpiryScope | src/app/users/page.jsx:58-63 | a 401 on the books, authors or publishers page keeps `"userRole"` and every other unrelated key; on the users page it wipes everything |
| Lists.PublishersFetchAsWritten | src/app/publishers/page.jsx:72-93 | as the code runs, a 403 on the publishers fetch shows the generic load-failure alert and keeps rows and storage |
| Lists.PublishersFetch | src/app/publishers/page.jsx:80-85 | as intended, a 403 shows the access-denied notice naming the role; every other answer is handled exactly as the code already handles it |
| Lists.PublishersForbidden | src/app/publishers/page.jsx:80-93 | a 403 never touches storage or rows and never navigates, in either version; the code as written never shows the access-denied notice, for any reply |
| Lists.ManageIsCaseSensitive | src/app/books/page.jsx:121 | the Add, Edit and Delete controls, the lend page's admin view and the add-user page's admission all use this one test, which holds exactly for the role text `ADMIN`; no lower-cased role, such as the one signup stores, ever qualifies |
| Lend.ResolveLendSession | src/app/lend/page.jsx:14-35 | the lend page needs a readable record with a truthy token and a truthy id; the id is `parseInt(userId)` when truthy, else the record's `id`; every other field of the record is kept |
| Lend.LendIgnoresScalars | src/app/lend/page.jsx:16-21 | writing any key other than `"user"` leaves the lend gate unchanged |
| Lend.MountLend | src/app/lend/page.jsx:23-34 | a failed check clears all storage and pushes to `/login`; otherwise the page fetches its list with the record's token |
| Lend.AvailableRow | src/app/lend/page.jsx:65-68 | an available row is the book with status `available` and every other field kept |
| Lend.LentRow | src/app/lend/page.jsx:69-75 | a lent row carries status `lent`, the lending record's id, its creation time and the current user's name; every other field comes from the record's book |
| Lend.AvailableRows | src/app/lend/page.jsx:65 | every book maps, in order, to its available row |
| Lend.LentRows | src/app/lend/page.jsx:69 | every lending record maps, in order, to its lent row |
| Lend.OwnList | src/app/lend/page.jsx:62-77 | a non-admin's list is the available books followed by the lent books, a missing array counting as empty, with each row's status and lending fields set |
| Lend.ActionFor | src/app/lend/page.jsx:176-192 | an available row offers Lend with the row's own id; otherwise a row with a truthy lending id offers Return with that id; all other rows offer nothing |
| Lend.AvailableAction | src/app/lend/page.jsx:176-182 | an available row offers Lend with its book's own id |
| Lend.LentAction | src/app/lend/page.jsx:183-192 | a lent row offers Return with its lending record's id when that id is truthy, and nothing otherwise |
| Lend.OwnListActions | src/app/lend/page.jsx:163-192 | on a non-admin's list, each available book offers Lend with its own id, and each lent book offers Return with its lending record's id when that id is truthy |
| Lend.FetchOutcome | src/app/lend/page.jsx:37-84 | admins see the server's rows and others see the merged list; a 401 or 403 clears storage, pushes to `/login` and still alerts; any other failure only alerts |
| Lend.MutationOutcome | src/app/lend/page.jsx:97-110 | success alerts and fetches the list again; a 401 or 403 clears storage, pushes and alerts; anything else only alerts |
| Lend.HandleLend | src/app/lend/page.jsx:86-111 | Lend POSTs the user's id and the book's id with the session's bearer token, and reports success or failure |
| Lend.HandleReturn | src/app/lend/page.jsx:113-139 | Return POSTs with the lending id in the query, no body and the session's bearer token, and reports success or failure |
| Lend.LendExpiryForcesLogin | src/app/lend/page.jsx:52-57 | after a 401 or 403 on the list fetch, a lend or a return, the next mount of the lend page and every list page's gate go to `/login` |
| Lend.LendListUrl | src/app/lend/page.jsx:41-44 | an admin fetches the all-books-status endpoint; anyone else fetches the per-user endpoint whose query ends with the printed user id |
| Lend.LendUrlsSeparateUsers | src/app/lend/page.jsx:41-44 | two non-admin users fetch the same list exactly when their ids print alike, and neither fetches the admin's list |
| Lend.RefetchRepeatsMount | src/app/lend/page.jsx:105-106 | after a successful lend or return, the page reissues exactly the request it made on mount |
| Dashboard.Stats | src/app/dashboard/page.jsx:76-81 | the four widgets keep their fixed titles and colours; a missing or falsy count shows 0 |
| Dashboard.SuccessRendersStats | src/app/dashboard/page.jsx:76-81 | a good answer renders exactly these widgets; a widget shows 0 exactly when its count is missing or falsy, and never shows undefined, null or NaN |
| Dashboard.FetchDashboard | src/app/dashboard/page.jsx:19-91 | with no record token it shows the no-token error and sends nothing; a 401 removes only `"token"`; a 403 or other status shows its own error; a thrown fetch shows its message, and a null body the TypeError text; only a 401 writes storage; no failure ever navigates; a good answer fills the stats and the two arrays |
| Dashboard.Render | src/app/dashboard/page.jsx:93-118 | loading wins over an error, and an error wins over the panels |
| Dashboard.SettledRender | src/app/dashboard/page.jsx:85-103 | after any fetch settles, the spinner is gone, and every failure shows its message in the banner |
| Dashboard.RetryAfterExpiryResendsToken | src/app/dashboard/page.jsx:56-63 | after a 401, Retry sends the same expired token again, because the removed scalar key is one the dashboard never reads |
| Dashboard.ScalarTokenIgnored | src/app/dashboard/page.jsx:21-37 | with only a scalar token, the list pages proceed but the dashboard reports no token |
| Forms.MountAddBook | src/app/books/add/page.jsx:17-41 | the add-book page pushes to `/login` exactly when no token is recovered; otherwise it fetches authors and publishers with it |
| Forms.LoadChoices | src/app/books/add/page.jsx:43-64 | both choice lists are set exactly when both answers are 2xx; otherwise neither is set and one alert is raised |
| Forms.LoadChoicesAllOrNothing | src/app/books/add/page.jsx:45-63 | once either reply fails, the other makes no difference, and the previous choices are kept |
| Forms.BookBody | src/app/books/add/page.jsx:76-81 | the body has exactly the title, the category, and the author and publisher ids converted by `Number` |
| Forms.SubmitBook | src/app/books/add/page.jsx:66-94 | the page pushes to `/books` exactly on a 2xx answer; a non-2xx answer alerts "Failed to add book." and a thrown fetch "Something went wrong." |
| Forms.MountAddAuthor | src/app/authors/add/page.jsx:12-37 | the add-author page stays exactly when the list pages' token gate proceeds; otherwise it pushes to `/login` |
| Forms.SubmitAuthor | src/app/authors/add/page.jsx:39-62 | the body is exactly the name and biography; the page navigates exactly on a 2xx answer, to `/authors` after the success alert; a non-2xx answer and a thrown fetch each raise their own failure alert |
| Forms.CheckAdmin | src/app/users/add/page.jsx:15-35 | the add-user page admits exactly a readable record with a truthy token and role `ADMIN`; any other truthy role is alerted and sent to `/`; everything else goes to `/login` |
| Forms.AddFormsSubmitMountToken | src/app/authors/add/page.jsx:36-47 | the add-book and add-author submits carry the same Authorization header as the mount, with the token the list pages proceed with |
| Forms.AdminSubmitUsesGateToken | src/app/users/add/page.jsx:50-59 | whoever the add-user page admits submits with the token the users list proceeds with, while storage is unchanged |
| Forms.AdminGateWithinUsersGate | src/app/users/add/page.jsx:25-31 | anyone the add-user page admits is admitted to the users list with management controls; anyone it turns away for their role is admitted to the list without them |
| Forms.SubmitUser | src/app/users/add/page.jsx:41-74 | an empty role sends nothing; a missing or unreadable record sends nothing and alerts; otherwise the form is POSTed with the record's token; the page navigates exactly on 2xx, to `/users` and nothing else; a non-2xx answer with a body shows the server's message or a default; a thrown fetch or a null body shows "Something went wrong." |
| Auth.RedirectIfSignedIn | src/app/login/page.jsx:17-21 | the login and signup pages push to the dashboard exactly when a user is signed in |
| Auth.LoginRecord | src/app/login/page.jsx:43-49 | the stored record has exactly name, email, role, token and userId; the email is as typed and the rest come from the answer |
| Auth.HandleLogin | src/app/login/page.jsx:27-62 | login succeeds exactly on a 2xx answer with a truthy token; it signs in, writes `"user"`, `"token"` and `"userId"` but never `"userRole"`, and pushes to the dashboard; otherwise storage is unchanged and the server's message or the default is shown |
| Auth.LoginEstablishesSession | src/app/login/page.jsx:50-54 | after a login, every list page proceeds with the new token; with no role in the answer, the role falls back to whatever `"userRole"` an earlier signup left |
| Auth.SignupRecord | src/app/signup/page.jsx:48-54 | the signup record stores the user id under `id`, keeps a truthy role, and stores `USER` when the answer's role is falsy |
| Auth.HandleSignup | src/app/signup/page.jsx:31-75 | on a 2xx answer with a token, the scalar token is written first; a string role then writes the lower-cased `"userRole"` and the record, signs in and schedules the push; a role that is not a string fails with the token already written; a thrown fetch or a null or undefined body shows "Signup failed" and keeps storage |
| Auth.SignupEstablishesSession | src/app/signup/page.jsx:56-59 | after a signup, the users page proceeds with the role in its original case, and the lend page takes the id from the record's `id` |
| Auth.FailedSignupLeavesToken | src/app/signup/page.jsx:57-58 | a signup that fails on a non-string role still lets every list page in through the scalar token it wrote |
| Search.Entries | src/app/search/page.jsx:6-11 | the filter entries are the four keys in form order, each carrying its own input as typed |
| Search.Kept | src/app/search/page.jsx:25 | the kept entries are exactly those whose value is not all white space, with the values untrimmed |
| Search.KeptAscending | src/app/search/page.jsx:24-26 | filtering keeps the entries in form order |
| Search.FilterQuery | src/app/search/page.jsx:24-26 | the query holds each non-blank filter once, untrimmed, in form order, and no blank filter |
| Search.SearchRequest | src/app/search/page.jsx:29 | the search is a GET with no Authorization header, whose URL carries the serialised query |
| Search.BlankFormSendsEmptyQuery | src/app/search/page.jsx:24-29 | a form of blank filters sends the empty query |
| Search.SearchOutcome | src/app/search/page.jsx:28-36 | any answer whose body parses replaces the results; a failure keeps them; the spinner always stops |
| Search.StatusIgnored | src/app/search/page.jsx:29-31 | an error status whose body parses lands in the results exactly as a 2xx answer with the same body does |
| Guards.ProtectedRoute | src/components/ProtectedRoute.jsx:7-19 | while loading, the guard shows the placeholder; once settled, it shows the page exactly for a signed-in user, and pushes to `/login` exactly for anyone else |
| Guards.GuardsComplement | src/components/ProtectedRoute.jsx:11-15 | once settled, exactly one of the guard and the login and signup pages' check pushes |
| Guards.Sidebar | src/components/Sidebar.jsx:17-43 | a signed-out user sees no sidebar; otherwise the six links appear in order, each highlighted exactly when its path is a prefix of the current one |
| Guards.HrefsDisjoint | src/components/Sidebar.jsx:8-15 | no link's path is a prefix of another's |
| Guards.AtMostOneActive | src/components/Sidebar.jsx:31 | at most one link is highlighted, whatever the path |
| Guards.NestedPathHighlightsSection | src/components/Sidebar.jsx:13 | an example of the prefix rule on a nested path: on the add-user form, only the Users link is highlighted |

## Left out

- `fetch` and the network: every page function receives the settled reply. A response body that is not JSON counts as a thrown fetch.
- `JSON.parse`, `JSON.stringify`, `encodeURIComponent`, `URLSearchParams.toString`, `parseInt` and `Number` are parameters. Their behaviour is assumed only where a lemma's `requires` states it.
- Numbers are integers or NaN. Fractions, infinities and `-0` are not modelled.
- Js.Decimal: integers are unbounded. JavaScript numbers lose precision above 2^53 and print in exponent form from 10^21 on, so `Decimal` and `StrictEquals` differ from JavaScript beyond those sizes; ids and counts that large are not expected.
- Rows with object or array ids: the model compares them structurally, where `!==` compares references.
- Spreading a composite record, or a lending record's `book`, that is a string or an array: only object fields are spread (`Lend.Spread`, used by `Lend.ResolveLendSession` and `Lend.LentRow`).
- `toLowerCase`: only ASCII letters are lowered.
- The exact V8 wording of a TypeError on the dashboard: only the case where the body is null or undefined is written out.
- The shapes of the server's answers are not checked. A list answer is taken to be an array of rows. A lend answer's shape follows from the endpoint, which `Lend.FetchOutcome` requires.
- React itself is not modelled: state batching, `loading := true` before a fetch, re-renders, and a request that never settles.
- The other components are not modelled. This covers ExecutionChart, Navbar, AuthenticatedImage, DashboardWidget, the layout, the detail pages and the AuthContext internals. The auth context's `user` and `loading` are parameters of the guards.
- Forms.LoadChoices: reading a body after a 2xx answer cannot fail here. In the code, such a failure would also raise the alert, after the author list has been set.
- Forms.SubmitBook: the only failures modelled are a thrown fetch and a non-2xx status.
- Lists.FetchOutcome: a list body that fails to parse after a 2xx is folded into the thrown-fetch case.
- The users page's Clear button is the empty-term case of `Lists.SearchUrl`.

## Findings

| source | as written | input that shows it | evidently intended | confidence | as-written member | corrected member |
|---|---|---|---|---|---|---|
| src/app/publishers/page.jsx:80-85 | the 403 branch of `fetchPublishers` reads `storedRole`, which is declared only inside the mount effect, so it throws a ReferenceError; the generic catch then shows "Failed to load publishers. Please try again." | any 403 answer to the publishers fetch (see `Lists.PublishersForbidden`) | show the access-denied notice naming the page's role, and keep rows and storage | high, not executed | Lists.PublishersFetchAsWritten | Lists.PublishersFetch |

=== FILE: auth.dfy ===
/**
 The login and signup pages. Both POST the form without a token and, on
 a 2xx answer carrying a truthy token, sign the user in through the auth
 context and write the session to `localStorage`; they write different
 keys, in a different order, with a different record shape.
 */
module Auth {
  import opened Js
  import opened Storage
  import opened Http
  import opened Session
  import opened Lend

  /** What a submit leaves behind: the store, the error shown under the
      form (a JS value: the server's `message` is shown as it came), the
      success line, and the effects in order. */
  datatype Submitted = Submitted(store: Store, error: JsVal, success: string, effects: seq<Effect>)

  /** Both pages push a signed-in user to the dashboard on mount. */
  function RedirectIfSignedIn(user: JsVal): (effects: seq<Effect>)
    ensures Navigates(effects) <==> Truthy(user)
    ensures effects == [] || effects == [Navigate("/dashboard")]
  {
    if Truthy(user) then
      var effects := [Navigate("/dashboard")];
      assert effects[0].Navigate?;
      effects
    else []
  }

  const LoginUrl := Origin + "/api/auth/login"
  const SignupUrl := Origin + "/api/auth/signup"
  const LoginFailed := "Login failed"
  const SignupFailed := "Signup failed"
  const SignupDone := "Signup successful! Redirecting..."

  /** `JSON.stringify` of the stored record reads back, through
      `JSON.parse`, as a value with the same fields (a field holding
      undefined is dropped by the one and reads as undefined in the other). */
  ghost predicate ReadsBack(parse: string -> Json, stringify: JsVal -> string, v: JsVal) {
    parse(stringify(v)).Value? && forall k :: Field(parse(stringify(v)).v, k) == Field(v, k)
  }

  /** The record the login page stores and hands to the auth context: the
      backend's name, role, token and user id with the email as typed. */
  function LoginRecord(email: string, data: JsVal): (rec: JsVal)
    ensures rec.Obj? && rec.fields.Keys == {"name", "email", "role", "token", "userId"}
    ensures Field(rec, "email") == Str(email)
    ensures forall k :: k in {"name", "role", "token", "userId"} ==> Field(rec, k) == Field(data, k)
  {
    Obj(map["name" := Field(data, "name"), "email" := Str(email), "role" := Field(data, "role"),
            "token" := Field(data, "token"), "userId" := Field(data, "userId")])
  }

  /** Submitting the login form. Success means a 2xx answer whose body has
      a truthy token: the context is signed in, `"user"`, `"token"` and
      `"userId"` are written (never `"userRole"`) and the dashboard is
      pushed. Otherwise the server's message or "Login failed" is shown;
      a body that is null or undefined throws and shows "Login failed". */
  function HandleLogin(st: Store, stringify: JsVal -> string, email: string, password: string,
                       reply: Reply<JsVal>): (o: Submitted)
    ensures 1 <= |o.effects|
    ensures o.effects[0] == Send(Request(POST, LoginUrl, None,
                                         Obj(map["email" := Str(email), "password" := Str(password)])))
    ensures Navigates(o.effects) <==> reply.Answer? && Ok(reply.status) && Truthy(Field(reply.body, "token"))
    ensures Navigates(o.effects)
            ==> var rec := LoginRecord(email, reply.body);
                && o.effects == [o.effects[0], SignIn(rec), Navigate("/dashboard")]
                && o.store == SetItem(SetItem(st[UserKey := stringify(rec)], TokenKey, Field(rec, "token")),
                                      UserIdKey, Field(rec, "userId"))
                && o.error == Str("")
    ensures !Navigates(o.effects) ==> o.store == st && |o.effects| == 1 && Truthy(o.error)
    ensures !Navigates(o.effects) && reply.Answer? && Readable(reply.body)
            ==> o.error == Or(Field(reply.body, "message"), Str(LoginFailed))
    ensures !(reply.Answer? && Readable(reply.body)) ==> o.error == Str(LoginFailed)
    ensures RoleKey in o.store <==> RoleKey in st
  {
    var sent := Send(Request(POST, LoginUrl, None, Obj(map["email" := Str(email), "password" := Str(password)])));
    match reply
    case Thrown(_) => Submitted(st, Str(LoginFailed), "", [sent])
    case Answer(status, _, data) =>
      if !Readable(data) then Submitted(st, Str(LoginFailed), "", [sent])
      else if Ok(status) && Truthy(Field(data, "token")) then
        var rec := LoginRecord(email, data);
        var st' := SetItem(SetItem(st[UserKey := stringify(rec)], TokenKey, Field(data, "token")),
                           UserIdKey, Field(data, "userId"));
        var effects := [sent, SignIn(rec), Navigate("/dashboard")];
        assert effects[2].Navigate?;
        Submitted(st', Str(""), "", effects)
      else Submitted(st, Or(Field(data, "message"), Str(LoginFailed)), "", [sent])
  }

  /** After a successful login every list page proceeds with the login's
      token, the dashboard finds it too, and the role comes from the
      login answer when it is set; when the answer carries no role, the
      pages fall back on whatever `"userRole"` an earlier signup left. */
  lemma LoginEstablishesSession(st: Store, parse: string -> Json, stringify: JsVal -> string,
                                email: string, password: string, status: int, text: string, data: JsVal)
    requires Ok(status) && Truthy(Field(data, "token"))
    requires ReadsBack(parse, stringify, LoginRecord(email, data))
    requires stringify(LoginRecord(email, data)) != ""
    ensures var o := HandleLogin(st, stringify, email, password, Answer(status, text, data));
            && ResolveSession(o.store, parse, false).Proceed?
            && ResolveSession(o.store, parse, false).token == Field(data, "token")
            && (Truthy(Field(data, "role"))
                ==> ResolveSession(o.store, parse, true) == Proceed(Field(data, "token"), Field(data, "role")))
            && (!Truthy(Field(data, "role")) ==> RecoveredRole(o.store, parse) == GetItem(st, RoleKey))
  {
    var rec := LoginRecord(email, data);
    var o := HandleLogin(st, stringify, email, password, Answer(status, text, data));
    assert o.store[UserKey] == stringify(rec);
    assert Field(parse(stringify(rec)).v, "token") == Field(rec, "token");
    assert Field(parse(stringify(rec)).v, "role") == Field(rec, "role");
    assert ReadComposite(o.store, parse) == Record(parse(stringify(rec)).v);
    assert GetItem(o.store, RoleKey) == GetItem(st, RoleKey);
  }

  /** The record the signup page stores: the backend's user id under
      `id` (not `userId`), and the role defaulted to "USER". */
  function SignupRecord(email: string, data: JsVal): (rec: JsVal)
    ensures rec.Obj? && rec.fields.Keys == {"id", "name", "email", "role", "token"}
    ensures Field(rec, "id") == Field(data, "userId") && Field(rec, "email") == Str(email)
    ensures Field(rec, "name") == Field(data, "name") && Field(rec, "token") == Field(data, "token")
    ensures Truthy(Field(rec, "role"))
    ensures Truthy(Field(data, "role")) ==> Field(rec, "role") == Field(data, "role")
    ensures !Truthy(Field(data, "role")) ==> Field(rec, "role") == Str("USER")
  {
    Obj(map["id" := Field(data, "userId"), "name" := Field(data, "name"), "email" := Str(email),
            "role" := Or(Field(data, "role"), Str("USER")), "token" := Field(data, "token")])
  }

  /** Submitting the signup form. On a 2xx answer with a truthy token the
      scalar token is written first; a string role is then lower-cased into
      `"userRole"`, the record is written, the context signed in and the
      dashboard pushed a second later. A role that is not a string makes
      `toLowerCase` throw after the token is already written. */
  function HandleSignup(st: Store, stringify: JsVal -> string, name: string, email: string, password: string,
                        reply: Reply<JsVal>): (o: Submitted)
    ensures 1 <= |o.effects|
    ensures o.effects[0] == Send(Request(POST, SignupUrl, None,
                                         Obj(map["name" := Str(name), "email" := Str(email), "password" := Str(password)])))
    ensures Navigates(o.effects) <==>
              reply.Answer? && Ok(reply.status) && Truthy(Field(reply.body, "token"))
              && Field(SignupRecord(email, reply.body), "role").Str?
    ensures Navigates(o.effects)
            ==> var rec := SignupRecord(email, reply.body);
                && o.effects == [o.effects[0], SignIn(rec), NavigateLater(1000, "/dashboard")]
                && o.store == SetItem(st, TokenKey, Field(rec, "token"))[RoleKey := Lower(Field(rec, "role").s)]
                                                                    [UserKey := stringify(rec)]
                && o.success == SignupDone && o.error == Str("")
    ensures !Navigates(o.effects) ==> |o.effects| == 1 && o.success == "" && Truthy(o.error)
    ensures reply.Answer? && Ok(reply.status) && Truthy(Field(reply.body, "token"))
            ==> TokenKey in o.store && o.store[TokenKey] == Text(Field(reply.body, "token"))
    ensures !(reply.Answer? && Ok(reply.status) && Truthy(Field(reply.body, "token"))) ==> o.store == st
    ensures reply.Thrown? || (reply.Answer? && !Readable(reply.body)) ==> o.error == Str(SignupFailed) && o.store == st
    ensures !Navigates(o.effects) && reply.Answer? && Readable(reply.body)
            && !(Ok(reply.status) && Truthy(Field(reply.body, "token")))
            ==> o.error == Or(Field(reply.body, "message"), Str(SignupFailed))
  {
    var sent := Send(Request(POST, SignupUrl, None,
                             Obj(map["name" := Str(name), "email" := Str(email), "password" := Str(password)])));
    match reply
    case Thrown(_) => Submitted(st, Str(SignupFailed), "", [sent])
    case Answer(status, _, data) =>
      if !Readable(data) then Submitted(st, Str(SignupFailed), "", [sent])
      else if Ok(status) && Truthy(Field(data, "token")) then
        var rec := SignupRecord(email, data);
        var st1 := SetItem(st, TokenKey, Field(data, "token"));
        var role := Field(rec, "role");
        if !role.Str? then Submitted(st1, Str(SignupFailed), "", [sent])
        else
          var effects := [sent, SignIn(rec), NavigateLater(1000, "/dashboard")];
          assert effects[2].NavigateLater?;
          Submitted(st1[RoleKey := Lower(role.s)][UserKey := stringify(rec)], Str(""), SignupDone, effects)
      else Submitted(st, Or(Field(data, "message"), Str(SignupFailed)), "", [sent])
  }

  /** After a successful signup the users page proceeds with the record's
      role in its original case (the lower-cased scalar copy is never
      consulted), and the lend page takes the user's id from the record's
      `id`, because the record has no `userId` for `parseInt` to read. */
  lemma SignupEstablishesSession(st: Store, parse: string -> Json, stringify: JsVal -> string,
                                 parseInt: JsVal -> JsVal, name: string, email: string, password: string,
                                 status: int, text: string, data: JsVal)
    requires Ok(status) && Truthy(Field(data, "token"))
    requires Field(SignupRecord(email, data), "role").Str?
    requires ReadsBack(parse, stringify, SignupRecord(email, data))
    requires stringify(SignupRecord(email, data)) != ""
    requires !Truthy(parseInt(Undefined))
    ensures var o := HandleSignup(st, stringify, name, email, password, Answer(status, text, data));
            && ResolveSession(o.store, parse, true)
               == Proceed(Field(data, "token"), Field(SignupRecord(email, data), "role"))
            && (Truthy(Field(data, "userId")) ==>
                  && ResolveLendSession(o.store, parse, parseInt).Ready?
                  && Id(ResolveLendSession(o.store, parse, parseInt).user) == Field(data, "userId"))
  {
    var rec := SignupRecord(email, data);
    var o := HandleSignup(st, stringify, name, email, password, Answer(status, text, data));
    var w := parse(stringify(rec)).v;
    assert o.store[UserKey] == stringify(rec);
    assert Field(w, "token") == Field(rec, "token");
    assert Field(w, "role") == Field(rec, "role");
    assert Field(w, "id") == Field(rec, "id");
    assert Field(w, "userId") == Field(rec, "userId") == Undefined;
    assert ReadComposite(o.store, parse) == Record(w);
  }

  /** A signup answer whose role is truthy but not a string (a number, an
      array, an object) fails with "Signup failed", yet the scalar token it
      already wrote lets every list page in when no composite record is
      stored: the user appears signed out and signed in at once. */
  lemma FailedSignupLeavesToken(st: Store, parse: string -> Json, stringify: JsVal -> string,
                                name: string, email: string, password: string,
                                status: int, text: string, data: JsVal)
    requires Ok(status) && Truthy(Field(data, "token"))
    requires Field(data, "token").Str?
    requires Truthy(Field(data, "role")) && !Field(data, "role").Str?
    requires UserKey !in st
    ensures var o := HandleSignup(st, stringify, name, email, password, Answer(status, text, data));
            && o.error == Str(SignupFailed)
            && !Navigates(o.effects)
            && ResolveSession(o.store, parse, false) == Proceed(Field(data, "token"), GetItem(st, RoleKey))
  {
    var o := HandleSignup(st, stringify, name, email, password, Answer(status, text, data));
    assert o.store == st[TokenKey := Text(Field(data, "token"))];
    assert ReadComposite(o.store, parse) == NoRecord;
  }
}

=== FILE: dashboard.dfy ===
/**
 The dashboard. It reads its token from the composite record only,
 turns every failure into an error banner (none of them redirects),
 defaults missing counts to 0, and renders loading before error before
 data. Its Retry button runs the same fetch again.
 */
module Dashboard {
  import opened Js
  import opened Storage
  import opened Http
  import opened Session

  /** The token `fetchDashboardData` finds: the composite's `token`, or
      null when the record is missing or unreadable (a parse failure is
      only logged). The scalar keys are never read. */
  function DashboardToken(st: Store, parse: string -> Json): JsVal {
    CompositeField(ReadComposite(st, parse), "token")
  }

  datatype Widget = Widget(title: string, value: JsVal, color: string)

  /** The page state. `monthly` and `recent` are whatever arrays the
      backend sent, or empty arrays. */
  datatype DashState = DashState(loading: bool, error: Option<string>, stats: seq<Widget>,
                                 monthly: JsVal, recent: JsVal)

  const NoToken := "No authentication token found. Please login again."
  const ExpiredMessage := "Authentication expired. Please login again."
  const DeniedMessage := "Access denied. You don't have permission to view this data."

  const StatTitles := ["Total Books", "Authors", "Publishers", "Users"]
  const StatKeys := ["totalBooks", "totalAuthors", "totalPublishers", "totalUsers"]
  const StatColors := ["bg-blue-600", "bg-green-600", "bg-yellow-600", "bg-purple-600"]

  /** The four widgets, in fixed order; a missing or falsy count shows 0. */
  function Stats(data: JsVal): (w: seq<Widget>)
    ensures |w| == 4
    ensures forall i :: 0 <= i < 4 ==>
              && w[i].title == StatTitles[i]
              && w[i].color == StatColors[i]
              && (Truthy(Field(data, StatKeys[i])) ==> w[i].value == Field(data, StatKeys[i]))
              && (!Truthy(Field(data, StatKeys[i])) ==> w[i].value == Num(0))
  {
    seq(4, i requires 0 <= i < 4 => Widget(StatTitles[i], Or(Field(data, StatKeys[i]), Num(0)), StatColors[i]))
  }

  /** A widget shows 0 exactly when its count is missing or falsy, and
      never shows undefined, null or NaN; a good answer renders exactly
      these widgets. */
  lemma SuccessRendersStats(st: Store, parse: string -> Json, s: DashState, status: int, text: string, data: JsVal)
    requires Truthy(DashboardToken(st, parse)) && Ok(status) && Readable(data)
    ensures var l := FetchDashboard(st, parse, s, Answer(status, text, data));
            Render(l.state).Panels? && Render(l.state).stats == Stats(data)
    ensures forall i :: 0 <= i < 4 ==> (Stats(data)[i].value == Num(0) <==> !Truthy(Field(data, StatKeys[i])))
    ensures forall i :: 0 <= i < 4 ==> Truthy(Stats(data)[i].value) || Stats(data)[i].value == Num(0)
  {
  }

  const StatsUrl := Origin + "/api/dashboard/stats"

  /** What one run of `fetchDashboardData` leaves behind. */
  datatype Loaded = Loaded(store: Store, state: DashState, effects: seq<Effect>)

  /** One run of `fetchDashboardData` from state `s`, on mount or on Retry. */
  function FetchDashboard(st: Store, parse: string -> Json, s: DashState, reply: Reply<JsVal>): (l: Loaded)
    ensures !l.state.loading
    ensures !Navigates(l.effects)
    ensures !Truthy(DashboardToken(st, parse))
            ==> l == Loaded(st, s.(loading := false, error := Some(NoToken)), [])
    ensures Truthy(DashboardToken(st, parse))
            ==> l.effects == [Send(Authorized(GET, StatsUrl, DashboardToken(st, parse), Undefined))]
    ensures Truthy(DashboardToken(st, parse)) && reply.Answer? && reply.status == 401
            ==> l.store == RemoveItems(st, {TokenKey}) && l.state.error == Some(ExpiredMessage)
    ensures Truthy(DashboardToken(st, parse)) && reply.Answer? && reply.status == 403
            ==> l.store == st && l.state.error == Some(DeniedMessage)
    ensures Truthy(DashboardToken(st, parse)) && reply.Answer? && !Ok(reply.status)
            && reply.status != 401 && reply.status != 403
            ==> l.store == st && l.state.error == Some("Server error: " + Decimal(reply.status) + " " + reply.statusText)
    ensures l.state.error.None? ==> reply.Answer? && Ok(reply.status) && l.store == st && l.state.stats == Stats(reply.body)
    ensures !(reply.Answer? && reply.status == 401) ==> l.store == st
    ensures Truthy(DashboardToken(st, parse)) && reply.Thrown?
            ==> l.state.error == Some("Failed to load dashboard data: " + reply.message)
    ensures Truthy(DashboardToken(st, parse)) && reply.Answer? && Ok(reply.status) && !Readable(reply.body)
            ==> l.state.error == Some("Failed to load dashboard data: Cannot read properties of "
                                      + Text(reply.body) + " (reading 'totalBooks')")
    ensures Truthy(DashboardToken(st, parse)) && reply.Answer? && Ok(reply.status) && Readable(reply.body)
            ==> l.store == st && l.state.error.None?
                && (Truthy(Field(reply.body, "monthlyLendStats")) ==> l.state.monthly == Field(reply.body, "monthlyLendStats"))
                && (!Truthy(Field(reply.body, "monthlyLendStats")) ==> l.state.monthly == Arr([]))
                && (Truthy(Field(reply.body, "recentLends")) ==> l.state.recent == Field(reply.body, "recentLends"))
                && (!Truthy(Field(reply.body, "recentLends")) ==> l.state.recent == Arr([]))
  {
    var token := DashboardToken(st, parse);
    if !Truthy(token) then Loaded(st, s.(loading := false, error := Some(NoToken)), [])
    else
      var sent := [Send(Authorized(GET, StatsUrl, token, Undefined))];
      var failed := (message: string) => s.(loading := false, error := Some(message));
      match reply
      case Thrown(m) => Loaded(st, failed("Failed to load dashboard data: " + m), sent)
      case Answer(status, text, data) =>
        if status == 401 then Loaded(RemoveItems(st, {TokenKey}), failed(ExpiredMessage), sent)
        else if status == 403 then Loaded(st, failed(DeniedMessage), sent)
        else if !Ok(status) then Loaded(st, failed("Server error: " + Decimal(status) + " " + text), sent)
        else if !Readable(data) then
          Loaded(st, failed("Failed to load dashboard data: Cannot read properties of " + Text(data)
                            + " (reading 'totalBooks')"), sent)
        else
          Loaded(st, DashState(false, None, Stats(data), Or(Field(data, "monthlyLendStats"), Arr([])),
                               Or(Field(data, "recentLends"), Arr([]))), sent)
  }

  /** What the page renders. */
  datatype View = Spinner | Banner(message: string) | Panels(stats: seq<Widget>, monthly: JsVal, recent: JsVal)

  /** Loading wins over an error, and an error over the data. */
  function Render(s: DashState): (v: View)
    ensures v.Spinner? <==> s.loading
    ensures v.Banner? <==> !s.loading && s.error.Some? && s.error.value != ""
    ensures v.Banner? ==> v.message == s.error.value
    ensures v.Panels? ==> v == Panels(s.stats, s.monthly, s.recent)
  {
    if s.loading then Spinner
    else if s.error.Some? && s.error.value != "" then Banner(s.error.value)
    else Panels(s.stats, s.monthly, s.recent)
  }

  /** Every settled run shows either the error banner or the panels, never
      the spinner; a failure always shows a banner. */
  lemma SettledRender(st: Store, parse: string -> Json, s: DashState, reply: Reply<JsVal>)
    ensures var l := FetchDashboard(st, parse, s, reply);
            && !Render(l.state).Spinner?
            && (l.state.error.Some? ==> Render(l.state) == Banner(l.state.error.value))
  {
    var l := FetchDashboard(st, parse, s, reply);
    if l.state.error.Some? {
      assert l.state.error.value != "";
    }
  }

  /** A 401 removes the scalar `"token"` key, which the dashboard never
      reads: the composite keeps its token, so Retry sends exactly the
      same request with the same expired credential. */
  lemma RetryAfterExpiryResendsToken(st: Store, parse: string -> Json, s: DashState, text: string,
                                     body: JsVal, again: Reply<JsVal>)
    requires Truthy(DashboardToken(st, parse))
    ensures var first := FetchDashboard(st, parse, s, Answer(401, text, body));
            var retry := FetchDashboard(first.store, parse, first.state, again);
            && Render(first.state) == Banner(ExpiredMessage)
            && !Navigates(first.effects)
            && retry.effects == first.effects
  {
    var first := FetchDashboard(st, parse, s, Answer(401, text, body));
    assert first.store == RemoveItems(st, {TokenKey});
    assert UserKey in first.store && first.store[UserKey] == st[UserKey];
    assert ReadComposite(first.store, parse) == ReadComposite(st, parse);
  }

  /** The dashboard ignores the scalar token the list pages fall back on:
      with no composite record it shows the no-token banner even when
      the books page would proceed. */
  lemma ScalarTokenIgnored(st: Store, parse: string -> Json, s: DashState, reply: Reply<JsVal>)
    requires UserKey !in st && TokenKey in st && st[TokenKey] != ""
    ensures ResolveSession(st, parse, false).Proceed?
    ensures FetchDashboard(st, parse, s, reply).state.error == Some(NoToken)
    ensures FetchDashboard(st, parse, s, reply).effects == []
  {
    assert ReadComposite(st, parse) == NoRecord;
  }
}

=== FILE: forms.dfy ===
/**
 The three "add" forms: add a book, add an author, add a user. The first
 two gate on a recoverable token only; the add-user page admits the
 exact role "ADMIN" and re-reads its token from the composite record
 when the form is submitted.
 */
module Forms {
  import opened Js
  import opened Storage
  import opened Http
  import opened Session
  import opened Lists

  /** Mount of the add-book page: a push to the login screen, or the two
      GETs for the author and publisher choices, issued together. */
  function MountAddBook(st: Store, parse: string -> Json): (effects: seq<Effect>)
    ensures ResolveToken(st, parse).None? <==> effects == [Navigate(LoginPath)]
    ensures ResolveToken(st, parse).Some?
            ==> effects == [Send(ListRequest(ListUrl(Authors), ResolveToken(st, parse).value)),
                            Send(ListRequest(ListUrl(Publishers), ResolveToken(st, parse).value))]
  {
    match ResolveToken(st, parse)
    case None => [Navigate(LoginPath)]
    case Some(token) =>
      [Send(ListRequest(ListUrl(Authors), token)), Send(ListRequest(ListUrl(Publishers), token))]
  }

  /** The author and publisher choices of the add-book form. */
  datatype Choices = Choices(authors: JsVal, publishers: JsVal, effects: seq<Effect>)

  /** `Promise.all` over both GETs: the choices are set only when both
      answers are 2xx; otherwise neither is, and one alert is raised. */
  function LoadChoices(c: Choices, authors: Reply<JsVal>, publishers: Reply<JsVal>): (r: Choices)
    ensures (authors.Answer? && Ok(authors.status) && publishers.Answer? && Ok(publishers.status))
            <==> r.effects == []
    ensures r.effects == [] ==> r.authors == authors.body && r.publishers == publishers.body
    ensures r.effects != [] ==> r == c.(effects := [Alert("Failed to load authors or publishers.")])
  {
    if authors.Answer? && Ok(authors.status) && publishers.Answer? && Ok(publishers.status) then
      Choices(authors.body, publishers.body, [])
    else c.(effects := [Alert("Failed to load authors or publishers.")])
  }

  /** `Promise.all` is all or nothing: once either reply fails, the other
      makes no difference, and the choices shown before are kept. */
  lemma LoadChoicesAllOrNothing(c: Choices, authors: Reply<JsVal>, publishers: Reply<JsVal>,
                                other: Reply<JsVal>)
    requires !(authors.Answer? && Ok(authors.status))
    ensures LoadChoices(c, authors, other) == LoadChoices(c, authors, publishers)
    ensures LoadChoices(c, other, authors) == LoadChoices(c, publishers, authors)
    ensures LoadChoices(c, authors, publishers).authors == c.authors
            && LoadChoices(c, authors, publishers).publishers == c.publishers
  {
  }

  /** The add-book form fields, as typed. */
  datatype BookForm = BookForm(title: string, authorId: string, publisherId: string, category: string)

  /** The JSON body of the add-book request; `toNumber` is `Number`. */
  function BookBody(f: BookForm, toNumber: string -> JsVal): (b: JsVal)
    ensures b.Obj? && b.fields.Keys == {"title", "category", "author", "publisher"}
    ensures Field(b, "title") == Str(f.title) && Field(b, "category") == Str(f.category)
    ensures Field(b, "author") == Obj(map["id" := toNumber(f.authorId)])
    ensures Field(b, "publisher") == Obj(map["id" := toNumber(f.publisherId)])
  {
    Obj(map["title" := Str(f.title), "category" := Str(f.category),
            "author" := Obj(map["id" := toNumber(f.authorId)]),
            "publisher" := Obj(map["id" := toNumber(f.publisherId)])])
  }

  /** Submitting the add-book form: success goes to the book list, any
      other answer alerts and stays on the page. */
  function SubmitBook(token: JsVal, f: BookForm, toNumber: string -> JsVal, reply: Reply<JsVal>): (effects: seq<Effect>)
    ensures |effects| == 2
    ensures effects[0] == Send(Authorized(POST, ListUrl(Books), token, BookBody(f, toNumber)))
    ensures effects[1] == Navigate("/books") <==> reply.Answer? && Ok(reply.status)
    ensures !(reply.Answer? && Ok(reply.status)) ==> effects[1].Alert?
    ensures reply.Answer? && !Ok(reply.status) ==> effects[1] == Alert("Failed to add book.")
    ensures reply.Thrown? ==> effects[1] == Alert("Something went wrong.")
  {
    var sent := Send(Authorized(POST, ListUrl(Books), token, BookBody(f, toNumber)));
    match reply
    case Thrown(_) => [sent, Alert("Something went wrong.")]
    case Answer(status, _, _) =>
      if Ok(status) then [sent, Navigate("/books")] else [sent, Alert("Failed to add book.")]
  }

  /** Mount of the add-author page: a push to the login screen or nothing;
      it fetches nothing. */
  function MountAddAuthor(st: Store, parse: string -> Json): (effects: seq<Effect>)
    ensures effects == [] <==> ResolveSession(st, parse, false).Proceed?
    ensures effects != [] ==> effects == [Navigate(LoginPath)]
  {
    StricterGate(st, parse);
    if ResolveToken(st, parse).None? then [Navigate(LoginPath)] else []
  }

  /** Submitting the add-author form: the body is exactly the name and the
      biography; a 2xx alerts and goes to the author list, anything else
      alerts and stays. */
  function SubmitAuthor(token: JsVal, name: string, biography: string, reply: Reply<JsVal>): (effects: seq<Effect>)
    ensures |effects| >= 2
    ensures effects[0] == Send(Authorized(POST, ListUrl(Authors), token,
                                          Obj(map["name" := Str(name), "biography" := Str(biography)])))
    ensures Navigates(effects) <==> reply.Answer? && Ok(reply.status)
    ensures reply.Answer? && Ok(reply.status) ==> effects[|effects| - 1] == Navigate("/authors")
    ensures !(reply.Answer? && Ok(reply.status)) ==> |effects| == 2 && effects[1].Alert?
    ensures reply.Answer? && Ok(reply.status)
            ==> effects == [effects[0], Alert("Author added successfully!"), Navigate("/authors")]
    ensures reply.Answer? && !Ok(reply.status) ==> effects[1] == Alert("Failed to add author.")
    ensures reply.Thrown? ==> effects[1] == Alert("An error occurred. Please try again.")
  {
    var sent := Send(Authorized(POST, ListUrl(Authors), token,
                                Obj(map["name" := Str(name), "biography" := Str(biography)])));
    match reply
    case Thrown(_) => [sent, Alert("An error occurred. Please try again.")]
    case Answer(status, _, _) =>
      if Ok(status) then
        var effects := [sent, Alert("Author added successfully!"), Navigate("/authors")];
        assert effects[2].Navigate?;
        effects
      else [sent, Alert("Failed to add author.")]
  }

  const AdminsOnly := "Access denied. Admins only."

  /** Mount of the add-user page: a missing, unreadable or incomplete
      composite goes to the login screen; a role other than exactly
      "ADMIN" alerts and goes home; an admin stays. The scalar keys are
      never read. */
  function CheckAdmin(st: Store, parse: string -> Json): (effects: seq<Effect>)
    ensures effects == [] <==>
              ReadComposite(st, parse).Record?
              && Truthy(Field(ReadComposite(st, parse).v, "token"))
              && CanManage(Field(ReadComposite(st, parse).v, "role"))
    ensures effects == [Alert(AdminsOnly), Navigate("/")] <==>
              ReadComposite(st, parse).Record?
              && Truthy(Field(ReadComposite(st, parse).v, "token"))
              && Truthy(Field(ReadComposite(st, parse).v, "role"))
              && !CanManage(Field(ReadComposite(st, parse).v, "role"))
    ensures effects == [] || effects == [Navigate(LoginPath)] || effects == [Alert(AdminsOnly), Navigate("/")]
  {
    var c := ReadComposite(st, parse);
    if !c.Record? then [Navigate(LoginPath)]
    else
      var token := Field(c.v, "token");
      var role := Field(c.v, "role");
      if !Truthy(token) || !Truthy(role) then [Navigate(LoginPath)]
      else if !CanManage(role) then [Alert(AdminsOnly), Navigate("/")]
      else []
  }

  /** Whoever the add-user page admits, the users list admits too, with
      the composite's token and the management controls shown. The
      converse fails: the list admits any non-empty role. */
  lemma AdminGateWithinUsersGate(st: Store, parse: string -> Json)
    ensures CheckAdmin(st, parse) == [] ==>
              && ResolveSession(st, parse, true).Proceed?
              && ResolveSession(st, parse, true).token == Field(ReadComposite(st, parse).v, "token")
              && CanManage(ResolveSession(st, parse, true).role)
    ensures CheckAdmin(st, parse) == [Alert(AdminsOnly), Navigate("/")] ==>
              && ResolveSession(st, parse, true).Proceed?
              && !CanManage(ResolveSession(st, parse, true).role)
  {
  }

  /** The add-user form fields, sent as the request body as they are. */
  datatype UserForm = UserForm(name: string, email: string, password: string, role: string)

  function UserBody(f: UserForm): JsVal {
    Obj(map["name" := Str(f.name), "email" := Str(f.email), "password" := Str(f.password), "role" := Str(f.role)])
  }

  const NoRole := "Please select a role for the user."

  /** Submitting the add-user form. An empty role alerts and sends
      nothing. The token is re-read from the composite record: a missing
      or unreadable record takes the error path without a request; a
      record without a token still sends, with `Bearer undefined`.
      Success goes to the user list; a failure shows the server's message
      or a default. */
  function SubmitUser(st: Store, parse: string -> Json, f: UserForm, reply: Reply<JsVal>): (effects: seq<Effect>)
    ensures f.role == "" ==> effects == [Alert(NoRole)]
    ensures f.role != "" && !ReadComposite(st, parse).Record? ==> effects == [Alert("Something went wrong.")]
    ensures Sends(effects) <==> f.role != "" && ReadComposite(st, parse).Record?
    ensures Sends(effects) ==> |effects| == 2 && effects[0] == Send(Authorized(POST, ListUrl(Users),
                                                             Field(ReadComposite(st, parse).v, "token"), UserBody(f)))
    ensures Navigates(effects) <==> Sends(effects) && reply.Answer? && Ok(reply.status)
    ensures Sends(effects) && reply.Answer? && Ok(reply.status) ==> effects == [effects[0], Navigate("/users")]
    ensures Sends(effects) && reply.Answer? && !Ok(reply.status) && Readable(reply.body)
            ==> effects[1] == Alert(Text(Or(Field(reply.body, "message"), Str("Failed to add user"))))
    ensures Sends(effects) && (reply.Thrown? || (reply.Answer? && !Ok(reply.status) && !Readable(reply.body)))
            ==> effects[1] == Alert("Something went wrong.")
  {
    if f.role == "" then [Alert(NoRole)]
    else
      var c := ReadComposite(st, parse);
      if !c.Record? then [Alert("Something went wrong.")]
      else
        var sent := Send(Authorized(POST, ListUrl(Users), Field(c.v, "token"), UserBody(f)));
        var effects :=
          match reply
          case Thrown(_) => [sent, Alert("Something went wrong.")]
          case Answer(status, _, data) =>
            if Ok(status) then [sent, Navigate("/users")]
            else if !Readable(data) then [sent, Alert("Something went wrong.")]
            else [sent, Alert(Text(Or(Field(data, "message"), Str("Failed to add user"))))];
        assert effects[0].Send?;
        assert effects[1].Navigate? <==> reply.Answer? && Ok(reply.status);
        effects
  }

  /** The add forms keep the token their mount check found: a submit sends
      the same Authorization header as the mount's requests, carrying the
      token the list pages would proceed with. */
  lemma AddFormsSubmitMountToken(st: Store, parse: string -> Json, book: BookForm, toNumber: string -> JsVal,
                                 name: string, biography: string, reply: Reply<JsVal>)
    requires ResolveToken(st, parse).Some?
    ensures var token := ResolveToken(st, parse).value;
            && SubmitBook(token, book, toNumber, reply)[0].request.auth
               == MountAddBook(st, parse)[0].request.auth
               == Some(Bearer(ResolveSession(st, parse, false).token))
            && SubmitAuthor(token, name, biography, reply)[0].request.auth
               == Some(Bearer(ResolveSession(st, parse, false).token))
  {
    StricterGate(st, parse);
  }

  /** Whoever the add-user page admits submits with the token the users
      list proceeds with, as long as storage is unchanged in between. */
  lemma AdminSubmitUsesGateToken(st: Store, parse: string -> Json, f: UserForm, reply: Reply<JsVal>)
    requires CheckAdmin(st, parse) == []
    requires f.role != ""
    ensures SubmitUser(st, parse, f, reply)[0]
            == Send(Authorized(POST, ListUrl(Users), ResolveSession(st, parse, true).token, UserBody(f)))
  {
    var effects := SubmitUser(st, parse, f, reply);
    assert effects[0].Send?;
  }
}

=== FILE: guards.dfy ===
/**
 The two components every protected page sits under: the route guard,
 which waits for the auth context and pushes a signed-out visitor to the
 login screen, and the sidebar, which shows six links and highlights the
 ones whose path prefixes the current one.
 */
module Guards {
  import opened Js
  import opened Http
  import opened Auth

  datatype RouteView = Waiting | Children | Nothing

  datatype Guarded = Guarded(view: RouteView, effects: seq<Effect>)

  /** The guard. While the context loads it shows the placeholder and does
      nothing; once settled, a signed-in user sees the page and anyone else
      sees nothing and is pushed to the login screen. */
  function ProtectedRoute(loading: bool, user: JsVal): (g: Guarded)
    ensures g.view == Waiting <==> loading
    ensures g.view == Children <==> !loading && Truthy(user)
    ensures Navigates(g.effects) <==> !loading && !Truthy(user)
    ensures Navigates(g.effects) ==> g.effects == [Navigate(LoginPath)] && g.view == Nothing
    ensures !Navigates(g.effects) ==> g.effects == []
  {
    if loading then Guarded(Waiting, [])
    else if !Truthy(user) then
      var effects := [Navigate(LoginPath)];
      assert effects[0].Navigate?;
      Guarded(Nothing, effects)
    else Guarded(Children, [])
  }

  /** Once the context has settled, exactly one of the guard and the login
      and signup pages' own check pushes: the guard a signed-out visitor,
      those pages a signed-in one. */
  lemma GuardsComplement(user: JsVal)
    ensures Navigates(ProtectedRoute(false, user).effects) != Navigates(RedirectIfSignedIn(user))
  {
  }

  datatype NavItem = NavItem(name: string, href: string)

  const NavItems := [NavItem("Dashboard", "/dashboard"), NavItem("Books", "/books"),
                     NavItem("Authors", "/authors"), NavItem("Publishers", "/publishers"),
                     NavItem("Users", "/users"), NavItem("Lend", "/lend")]

  datatype NavEntry = NavEntry(name: string, href: string, active: bool)

  /** The sidebar: nothing for a signed-out user, else the six links in
      order, each highlighted when `pathname.startsWith(href)`. */
  function Sidebar(user: JsVal, pathname: string): (s: Option<seq<NavEntry>>)
    ensures s.None? <==> !Truthy(user)
    ensures s.Some? ==> |s.value| == |NavItems|
    ensures s.Some? ==> forall i :: 0 <= i < |NavItems| ==>
              && s.value[i].name == NavItems[i].name
              && s.value[i].href == NavItems[i].href
              && (s.value[i].active <==> NavItems[i].href <= pathname)
  {
    if !Truthy(user) then None
    else Some(seq(|NavItems|, i requires 0 <= i < |NavItems| =>
                                NavEntry(NavItems[i].name, NavItems[i].href, NavItems[i].href <= pathname)))
  }

  /** Two prefixes of one path are prefixes of each other. */
  lemma PrefixesNest(a: string, b: string, p: string)
    requires a <= p && b <= p && |a| <= |b|
    ensures a <= b
  {
    assert a == p[..|a|];
    assert b == p[..|b|];
    assert b[..|a|] == p[..|a|];
  }

  /** No link's path is a prefix of another's. */
  lemma HrefsDisjoint(i: nat, j: nat)
    requires i < |NavItems| && j < |NavItems| && i != j
    ensures !(NavItems[i].href <= NavItems[j].href)
  {
    var a := NavItems[i].href;
    var b := NavItems[j].href;
    assert |a| >= 2 && |b| >= 2;
    assert a[1] != b[1] by {
      assert i == 0 || i == 1 || i == 2 || i == 3 || i == 4 || i == 5;
      assert j == 0 || j == 1 || j == 2 || j == 3 || j == 4 || j == 5;
    }
  }

  /** At most one link is highlighted, whatever the path. */
  lemma AtMostOneActive(user: JsVal, pathname: string)
    requires Truthy(user)
    ensures forall i, j :: 0 <= i < j < |NavItems| && Sidebar(user, pathname).value[i].active
              ==> !Sidebar(user, pathname).value[j].active
  {
    var s := Sidebar(user, pathname).value;
    forall i, j | 0 <= i < j < |NavItems| && s[i].active
      ensures !s[j].active
    {
      if s[j].active {
        var a := NavItems[i].href;
        var b := NavItems[j].href;
        if |a| <= |b| {
          PrefixesNest(a, b, pathname);
          HrefsDisjoint(i, j);
        } else {
          PrefixesNest(b, a, pathname);
          HrefsDisjoint(j, i);
        }
      }
    }
  }

  /** A nested page such as the add-user form highlights its section. */
  lemma NestedPathHighlightsSection(user: JsVal)
    requires Truthy(user)
    ensures forall i :: 0 <= i < |NavItems| ==>
              (Sidebar(user, "/users/add").value[i].active <==> NavItems[i].name == "Users")
  {
    var s := Sidebar(user, "/users/add").value;
    assert s[4].active;
    AtMostOneActive(user, "/users/add");
  }
}

=== FILE: http.dfy ===
/**
 What a page sends and receives, and what it asks the browser to do.
 `fetch` itself is not modelled: a page function receives the settled
 response (or the exception the request raised) as an input, and
 returns the requests, navigations and alerts it issues as effects.
 */
module Http {
  import opened Js

  /** Every endpoint lives under this origin. */
  const Origin := "http://localhost:8080"

  /** A settled request: the server answered with a status and a body, or
      an exception was raised (the network failed, or reading the body
      failed where the page reads it). */
  datatype Reply<+T> = Answer(status: int, statusText: string, body: T) | Thrown(message: string)

  /** `res.ok` */
  predicate Ok(status: int) {
    200 <= status <= 299
  }

  datatype Verb = GET | POST | DELETE

  /** `auth` is the Authorization header, absent on unauthenticated calls;
      `body` is the JSON body, undefined when there is none. */
  datatype Request = Request(verb: Verb, url: string, auth: Option<string>, body: JsVal)

  /** The Authorization header built from whatever value a page holds as
      its token, `undefined` included. */
  function Bearer(token: JsVal): string {
    "Bearer " + Text(token)
  }

  function Authorized(verb: Verb, url: string, token: JsVal, body: JsVal): Request {
    Request(verb, url, Some(Bearer(token)), body)
  }

  /** An observable action of a page: a router push, an `alert`, an
      outgoing request, a router push scheduled with `setTimeout`, or a
      call of the auth context's `login`. */
  datatype Effect =
    | Navigate(path: string)
    | Alert(message: string)
    | Send(request: Request)
    | NavigateLater(delayMs: nat, path: string)
    | SignIn(user: JsVal)

  const LoginPath := "/login"

  predicate Navigates(effects: seq<Effect>) {
    exists i :: 0 <= i < |effects| && (effects[i].Navigate? || effects[i].NavigateLater?)
  }

  predicate Sends(effects: seq<Effect>) {
    exists i :: 0 <= i < |effects| && effects[i].Send?
  }
}

=== FILE: js.dfy ===
/**
 The slice of JavaScript value semantics the pages depend on: falsiness
 (`if (!x)`, `a || b`), strict equality, property reads on parsed JSON,
 string coercion (`String(v)`, template literals), `String.prototype.trim`
 and an ASCII `toLowerCase`.
 */
module Js {

  datatype Option<+T> = None | Some(value: T)

  /** A JavaScript value. Numbers are modelled as integers or NaN. */
  datatype JsVal =
    | Undefined
    | Null
    | Bool(b: bool)
    | Num(n: int)
    | NaN
    | Str(s: string)
    | Arr(items: seq<JsVal>)
    | Obj(fields: map<string, JsVal>)

  /** A plain object, such as one row of a list returned by the backend. */
  type Record = map<string, JsVal>

  /** The result of `JSON.parse`: either it throws or it yields a value. */
  datatype Json = Malformed | Value(v: JsVal)

  /** `!!v`: undefined, null, false, 0, NaN and "" are falsy; every array
      and object, even an empty one, is truthy. */
  predicate Truthy(v: JsVal) {
    match v
    case Undefined => false
    case Null => false
    case Bool(b) => b
    case Num(n) => n != 0
    case NaN => false
    case Str(s) => s != ""
    case Arr(_) => true
    case Obj(_) => true
  }

  /** `a || b` */
  function Or(a: JsVal, b: JsVal): JsVal {
    if Truthy(a) then a else b
  }

  /** `a === b` on values that came from JSON. NaN equals nothing, not even
      itself; arrays and objects are compared structurally here, where
      JavaScript compares references. */
  predicate StrictEquals(a: JsVal, b: JsVal) {
    a == b && !a.NaN?
  }

  /** Reading `v.key` throws a TypeError exactly when `v` is null or undefined. */
  predicate Readable(v: JsVal) {
    !v.Null? && !v.Undefined?
  }

  /** `v.key` for a readable `v`: an own field of an object, undefined otherwise. */
  function Field(v: JsVal, key: string): JsVal {
    if v.Obj? && key in v.fields then v.fields[key] else Undefined
  }

  /** `record.key` on a plain object. */
  function Get(r: Record, key: string): JsVal {
    if key in r then r[key] else Undefined
  }

  /** The `id` field of a row. */
  function Id(r: Record): JsVal {
    Get(r, "id")
  }

  function DigitChar(d: nat): char
    requires d < 10
  {
    ('0' as int + d) as char
  }

  predicate IsDigits(s: string) {
    forall i :: 0 <= i < |s| ==> '0' <= s[i] <= '9'
  }

  /** The number a run of decimal digits denotes, most significant first. */
  function DigitsValue(s: string): nat
    requires IsDigits(s)
  {
    if s == [] then 0 else DigitsValue(s[..|s| - 1]) * 10 + (s[|s| - 1] as int - '0' as int)
  }

  /** The decimal digits of a natural number, most significant first. */
  function Digits(n: nat): (r: string)
    ensures |r| >= 1
    ensures IsDigits(r)
    ensures n >= 10 ==> r[0] != '0'
  {
    if n < 10 then [DigitChar(n)] else Digits(n / 10) + [DigitChar(n % 10)]
  }

  /** The digits `String(n)` writes denote `n` again. */
  lemma {:induction false} DigitsDenote(n: nat)
    ensures DigitsValue(Digits(n)) == n
  {
    if n >= 10 {
      var r := Digits(n);
      DigitsDenote(n / 10);
      assert r[..|r| - 1] == Digits(n / 10);
    }
  }

  /** `String(n)` for an integer-valued number below 10^21, where
      JavaScript still prints every digit. */
  function Decimal(n: int): string {
    if n < 0 then "-" + Digits(-n) else Digits(n)
  }

  /** `String(v)`, which is also what a template literal and
      `localStorage.setItem` do to a value. Arrays join their elements with
      commas, rendering null and undefined elements as empty text. */
  function Text(v: JsVal): string
    decreases v, 1
  {
    match v
    case Undefined => "undefined"
    case Null => "null"
    case Bool(b) => if b then "true" else "false"
    case Num(n) => Decimal(n)
    case NaN => "NaN"
    case Str(s) => s
    case Arr(items) => JoinText(v, items)
    case Obj(_) => "[object Object]"
  }

  function JoinText(whole: JsVal, items: seq<JsVal>): string
    requires whole.Arr? && items <= whole.items
    decreases whole, 0, |items|
  {
    if items == [] then ""
    else
      var last := items[|items| - 1];
      assert last in whole.items;
      var t := if last.Null? || last.Undefined? then "" else Text(last);
      if |items| == 1 then t else JoinText(whole, items[..|items| - 1]) + "," + t
  }

  /** The characters `String.prototype.trim` strips: the ECMAScript
      WhiteSpace set (tab, vertical tab, form feed, byte order mark and the
      Unicode space separators) and the LineTerminator set. */
  predicate IsSpace(c: char) {
    var n := c as int;
    n == 0x09 || n == 0x0A || n == 0x0B || n == 0x0C || n == 0x0D
    || n == 0x20 || n == 0xA0 || n == 0x1680
    || (0x2000 <= n <= 0x200A)
    || n == 0x2028 || n == 0x2029 || n == 0x202F || n == 0x205F
    || n == 0x3000 || n == 0xFEFF
  }

  predicate AllSpace(s: string) {
    forall i :: 0 <= i < |s| ==> IsSpace(s[i])
  }

  /** The index of the first character at or after `i` that is not white
      space, or `|s|` when there is none. */
  function SkipSpace(s: string, i: nat): (n: nat)
    requires i <= |s|
    ensures i <= n <= |s|
    ensures forall k :: i <= k < n ==> IsSpace(s[k])
    ensures n < |s| ==> !IsSpace(s[n])
    decreases |s| - i
  {
    if i < |s| && IsSpace(s[i]) then SkipSpace(s, i + 1) else i
  }

  /** The end of `s[lo..hi]` once its trailing white space is dropped. */
  function SkipSpaceBack(s: string, lo: nat, hi: nat): (n: nat)
    requires lo <= hi <= |s|
    ensures lo <= n <= hi
    ensures forall k :: n <= k < hi ==> IsSpace(s[k])
    ensures n > lo ==> !IsSpace(s[n - 1])
    decreases hi - lo
  {
    if hi > lo && IsSpace(s[hi - 1]) then SkipSpaceBack(s, lo, hi - 1) else hi
  }

  /** `s.trim()`: a contiguous slice of `s` with no white space at either
      end, everything cut away being white space. */
  function Trim(s: string): (r: string)
    ensures |r| <= |s|
    ensures r == [] || (!IsSpace(r[0]) && !IsSpace(r[|r| - 1]))
    ensures exists i, j :: 0 <= i <= j <= |s| && r == s[i..j]
                           && (forall k :: 0 <= k < i ==> IsSpace(s[k]))
                           && (forall k :: j <= k < |s| ==> IsSpace(s[k]))
  {
    var i := SkipSpace(s, 0);
    var j := SkipSpaceBack(s, i, |s|);
    s[i..j]
  }

  /** The trimmed text is empty exactly when the text is all white space. */
  lemma TrimEmptyIffAllSpace(s: string)
    ensures Trim(s) == [] <==> AllSpace(s)
  {
    var i := SkipSpace(s, 0);
    var j := SkipSpaceBack(s, i, |s|);
    assert Trim(s) == s[i..j];
  }

  /** `toLowerCase` on the ASCII letters; other characters are kept. */
  function Lower(s: string): (r: string)
    ensures |r| == |s|
    ensures forall i :: 0 <= i < |s| ==> !('A' <= r[i] <= 'Z')
    ensures forall i :: 0 <= i < |s| && 'A' <= s[i] <= 'Z' ==> r[i] as int == s[i] as int + 32
    ensures forall i :: 0 <= i < |s| && !('A' <= s[i] <= 'Z') ==> r[i] == s[i]
  {
    seq(|s|, i requires 0 <= i < |s| =>
      if 'A' <= s[i] <= 'Z' then (s[i] as int + 32) as char else s[i])
  }
}

=== FILE: lend.dfy ===
/**
 The lending page. Its session check reads only the composite record and
 wipes storage on any failure; an admin sees every book's status, any
 other user sees their available books followed by the books they hold;
 lending or returning a book re-fetches the list.
 */
module Lend {
  import opened Js
  import opened Storage
  import opened Http
  import opened Session
  import Lists

  /** The session the page works with: the composite's fields with `id`
      replaced by the effective user id, and the composite's token. */
  datatype LendGate = AuthFailed | Ready(user: Record, token: JsVal)

  /** `{...v}` for a parsed value: an object's own fields; nothing for the
      other values the id check lets through. */
  function Spread(v: JsVal): Record {
    if v.Obj? then v.fields else map[]
  }

  /** The mount-time check. `parseInt` is the page's call on the composite's
      `userId`; the scalar keys are never read. */
  function ResolveLendSession(st: Store, parse: string -> Json, parseInt: JsVal -> JsVal): (g: LendGate)
    ensures !ReadComposite(st, parse).Record? ==> g == AuthFailed
    ensures g.Ready? ==> Truthy(Id(g.user)) && Truthy(g.token)
    ensures g.Ready? ==>
              var v := ReadComposite(st, parse).v;
              && g.token == Field(v, "token")
              && (Truthy(parseInt(Field(v, "userId"))) ==> Id(g.user) == parseInt(Field(v, "userId")))
              && (!Truthy(parseInt(Field(v, "userId"))) ==> Id(g.user) == Field(v, "id"))
              && (forall k :: k != "id" ==> Get(g.user, k) == Field(v, k))
    ensures (ReadComposite(st, parse).Record?
             && Truthy(Or(parseInt(Field(ReadComposite(st, parse).v, "userId")), Field(ReadComposite(st, parse).v, "id")))
             && Truthy(Field(ReadComposite(st, parse).v, "token"))) ==> g.Ready?
  {
    var c := ReadComposite(st, parse);
    if !c.Record? then AuthFailed
    else
      var id := Or(parseInt(Field(c.v, "userId")), Field(c.v, "id"));
      var token := Field(c.v, "token");
      if !Truthy(id) || !Truthy(token) then AuthFailed
      else Ready(Spread(c.v)["id" := id], token)
  }

  /** The lend page never reads the scalar keys: rewriting any key other
      than the composite changes nothing about its session check. */
  lemma LendIgnoresScalars(st: Store, parse: string -> Json, parseInt: JsVal -> JsVal, key: string, text: string)
    requires key != UserKey
    ensures ResolveLendSession(st[key := text], parse, parseInt) == ResolveLendSession(st, parse, parseInt)
  {
    assert UserKey in st[key := text] <==> UserKey in st;
    assert ReadComposite(st[key := text], parse) == ReadComposite(st, parse);
  }

  /** The lend page's admin test: the list pages' management test on the
      record's role. */
  predicate IsAdmin(user: Record) {
    Lists.CanManage(Get(user, "role"))
  }

  const AllBooksUrl := Origin + "/api/lending/all-books-status"
  const UserBooksUrl := Origin + "/api/lending/books/user?userId="

  /** The endpoint chosen by role: the admin sees every book's status; any
      other user asks for the books of the id the session check settled on. */
  function LendListUrl(user: Record): (url: string)
    ensures IsAdmin(user) ==> url == AllBooksUrl
    ensures !IsAdmin(user) ==> |url| >= |UserBooksUrl| && url[..|UserBooksUrl|] == UserBooksUrl
                               && url[|UserBooksUrl|..] == Text(Id(user))
  {
    if IsAdmin(user) then AllBooksUrl
    else UserBooksUrl + Text(Id(user))
  }

  /** Two users who are not admins fetch the same list exactly when their
      ids print alike, and neither ever fetches the admin's list. */
  lemma LendUrlsSeparateUsers(u: Record, w: Record)
    requires !IsAdmin(u) && !IsAdmin(w)
    ensures LendListUrl(u) == LendListUrl(w) <==> Text(Id(u)) == Text(Id(w))
    ensures LendListUrl(u) != AllBooksUrl
  {
    var k := |Origin + "/api/lending/"|;
    assert AllBooksUrl[k] == 'a';
    assert LendListUrl(u)[k] == UserBooksUrl[k] == 'b';
  }

  function LendListRequest(user: Record, token: JsVal): Request {
    Authorized(GET, LendListUrl(user), token, Undefined)
  }

  /** Storage and effects of a page step. */
  datatype Step = Step(store: Store, effects: seq<Effect>)

  /** On mount: a failed check clears all storage and goes to the login
      screen; otherwise the page fetches its list with the composite token. */
  function MountLend(st: Store, parse: string -> Json, parseInt: JsVal -> JsVal): (s: Step)
    ensures ResolveLendSession(st, parse, parseInt).AuthFailed?
            ==> s == Step(Cleared, [Navigate(LoginPath)])
    ensures ResolveLendSession(st, parse, parseInt).Ready?
            ==> s.store == st && !Navigates(s.effects)
                && s.effects == [Send(LendListRequest(ResolveLendSession(st, parse, parseInt).user,
                                                      ResolveLendSession(st, parse, parseInt).token))]
  {
    match ResolveLendSession(st, parse, parseInt)
    case AuthFailed => Step(Cleared, [Navigate(LoginPath)])
    case Ready(user, token) => Step(st, [Send(LendListRequest(user, token))])
  }

  /** `{...book, status: "available"}` */
  function AvailableRow(book: Record): (r: Record)
    ensures Get(r, "status") == Str("available")
    ensures forall k :: k != "status" ==> Get(r, k) == Get(book, k)
  {
    book["status" := Str("available")]
  }

  /** `{...record.book, status: "lent", lendingId: record.id,
      lentAt: record.createdAt, lentTo: <the user's name>}` */
  function LentRow(record: Record, userName: JsVal): (r: Record)
    ensures Get(r, "status") == Str("lent")
    ensures Get(r, "lendingId") == Get(record, "id")
    ensures Get(r, "lentAt") == Get(record, "createdAt")
    ensures Get(r, "lentTo") == userName
    ensures forall k :: k != "status" && k != "lendingId" && k != "lentAt" && k != "lentTo"
                        ==> Get(r, k) == Get(Spread(Get(record, "book")), k)
  {
    Spread(Get(record, "book"))["status" := Str("lent")]["lendingId" := Get(record, "id")]
      ["lentAt" := Get(record, "createdAt")]["lentTo" := userName]
  }

  function AvailableRows(books: seq<Record>): (r: seq<Record>)
    ensures |r| == |books|
    ensures forall i :: 0 <= i < |books| ==> r[i] == AvailableRow(books[i])
  {
    if books == [] then [] else [AvailableRow(books[0])] + AvailableRows(books[1..])
  }

  function LentRows(records: seq<Record>, userName: JsVal): (r: seq<Record>)
    ensures |r| == |records|
    ensures forall i :: 0 <= i < |records| ==> r[i] == LentRow(records[i], userName)
  {
    if records == [] then [] else [LentRow(records[0], userName)] + LentRows(records[1..], userName)
  }

  /** A non-admin's list: every available book tagged "available", then
      every lending record's book tagged "lent" and stamped with the record
      id, its creation time and the current user's name. A missing array
      counts as empty. Every other field of a book is kept. */
  function OwnList(available: Option<seq<Record>>, lent: Option<seq<Record>>, userName: JsVal): (r: seq<Record>)
    ensures |r| == |OrEmpty(available)| + |OrEmpty(lent)|
    ensures forall i :: 0 <= i < |OrEmpty(available)| ==> r[i] == AvailableRow(OrEmpty(available)[i])
    ensures forall j :: |OrEmpty(available)| <= j < |r| ==>
              r[j] == LentRow(OrEmpty(lent)[j - |OrEmpty(available)|], userName)
  {
    var a := AvailableRows(OrEmpty(available));
    var l := LentRows(OrEmpty(lent), userName);
    AvailableHead(OrEmpty(available), l);
    LentTail(a, OrEmpty(lent), userName);
    a + l
  }

  lemma AvailableHead(books: seq<Record>, rest: seq<Record>)
    ensures forall i :: 0 <= i < |books| ==> (AvailableRows(books) + rest)[i] == AvailableRow(books[i])
  {
    AppendIndex(AvailableRows(books), rest);
  }

  lemma LentTail(head: seq<Record>, records: seq<Record>, userName: JsVal)
    ensures forall j :: |head| <= j < |head| + |records| ==>
              (head + LentRows(records, userName))[j] == LentRow(records[j - |head|], userName)
  {
    AppendIndex(head, LentRows(records, userName));
  }

  /** `array || []` for an array field the answer may leave out. */
  function OrEmpty(rows: Option<seq<Record>>): seq<Record> {
    if rows.Some? then rows.value else []
  }

  lemma AppendIndex<T>(a: seq<T>, b: seq<T>)
    ensures forall i :: 0 <= i < |a| ==> (a + b)[i] == a[i]
    ensures forall j :: 0 <= j < |b| ==> (a + b)[|a| + j] == b[j]
  {
  }

  /** What the action column offers for a row. */
  datatype RowAction = LendBook(bookId: JsVal) | ReturnBook(lendingId: JsVal) | Unavailable

  function ActionFor(row: Record): (a: RowAction)
    ensures a.LendBook? <==> Get(row, "status") == Str("available")
    ensures a.LendBook? ==> a.bookId == Id(row)
    ensures a.ReturnBook? ==> Truthy(a.lendingId) && a.lendingId == Get(row, "lendingId")
    ensures a.Unavailable? <==> Get(row, "status") != Str("available") && !Truthy(Get(row, "lendingId"))
  {
    if Get(row, "status") == Str("available") then LendBook(Id(row))
    else if Truthy(Get(row, "lendingId")) then ReturnBook(Get(row, "lendingId"))
    else Unavailable
  }

  /** An available row offers Lend with the book's own id. */
  lemma AvailableAction(book: Record)
    ensures ActionFor(AvailableRow(book)) == LendBook(Id(book))
  {
    assert Id(AvailableRow(book)) == Id(book);
  }

  /** A lent row offers Return with its lending record's id, or nothing
      when that id is falsy. */
  lemma LentAction(record: Record, userName: JsVal)
    ensures ActionFor(LentRow(record, userName))
            == if Truthy(Get(record, "id")) then ReturnBook(Get(record, "id")) else Unavailable
  {
    var row := LentRow(record, userName);
    assert Get(row, "status") != Str("available");
  }

  /** On a non-admin's list, every available book offers Lend with its own
      id, and every lent book offers Return with its lending record's id,
      or nothing when that id is falsy. */
  lemma OwnListActions(available: seq<Record>, lent: seq<Record>, userName: JsVal)
    ensures var r := OwnList(Some(available), Some(lent), userName);
            && (forall i :: 0 <= i < |available| ==> ActionFor(r[i]) == LendBook(Id(available[i])))
            && (forall k :: |available| <= k < |r| ==>
                  ActionFor(r[k]) == if Truthy(Get(lent[k - |available|], "id"))
                                     then ReturnBook(Get(lent[k - |available|], "id")) else Unavailable)
  {
    OwnListLendActions(available, lent, userName);
    OwnListReturnActions(available, lent, userName);
  }

  lemma OwnListLendActions(available: seq<Record>, lent: seq<Record>, userName: JsVal)
    ensures var r := OwnList(Some(available), Some(lent), userName);
            forall i :: 0 <= i < |available| ==> ActionFor(r[i]) == LendBook(Id(available[i]))
  {
    var r := OwnList(Some(available), Some(lent), userName);
    assert OrEmpty(Some(available)) == available;
    forall i | 0 <= i < |available|
      ensures ActionFor(r[i]) == LendBook(Id(available[i]))
    {
      assert r[i] == AvailableRow(available[i]);
      AvailableAction(available[i]);
    }
  }

  lemma OwnListReturnActions(available: seq<Record>, lent: seq<Record>, userName: JsVal)
    ensures var r := OwnList(Some(available), Some(lent), userName);
            forall k :: |available| <= k < |r| ==>
              ActionFor(r[k]) == if Truthy(Get(lent[k - |available|], "id"))
                                 then ReturnBook(Get(lent[k - |available|], "id")) else Unavailable
  {
    var r := OwnList(Some(available), Some(lent), userName);
    assert OrEmpty(Some(available)) == available && OrEmpty(Some(lent)) == lent;
    forall k | |available| <= k < |r|
      ensures ActionFor(r[k]) == if Truthy(Get(lent[k - |available|], "id"))
                                 then ReturnBook(Get(lent[k - |available|], "id")) else Unavailable
    {
      assert r[k] == LentRow(lent[k - |available|], userName);
      LentAction(lent[k - |available|], userName);
    }
  }

  /** A successful answer's body: the admin endpoint returns every book
      with its status, the per-user endpoint the user's two arrays. */
  datatype LendBody =
    | AllStatus(rows: seq<Record>)
    | OwnBooks(available: Option<seq<Record>>, lent: Option<seq<Record>>)

  /** The page state a list fetch leaves behind. */
  datatype Listed = Listed(store: Store, rows: seq<Record>, loading: bool, effects: seq<Effect>)

  const LoadFailed := "Error loading books"

  /** The settling of the list fetch. A 401 or 403 clears storage and
      redirects, and then still raises the load-failure alert. */
  function FetchOutcome(user: Record, st: Store, rows: seq<Record>, reply: Reply<LendBody>): (f: Listed)
    requires reply.Answer? && Ok(reply.status) ==> (IsAdmin(user) <==> reply.body.AllStatus?)
    ensures !f.loading
    ensures reply.Answer? && Ok(reply.status) && IsAdmin(user)
            ==> f == Listed(st, reply.body.rows, false, [])
    ensures reply.Answer? && Ok(reply.status) && !IsAdmin(user)
            ==> f == Listed(st, OwnList(reply.body.available, reply.body.lent, Get(user, "name")), false, [])
    ensures reply.Answer? && (reply.status == 401 || reply.status == 403)
            ==> f == Listed(Cleared, rows, false, [Navigate(LoginPath), Alert(LoadFailed)])
    ensures reply.Thrown? || (reply.Answer? && !Ok(reply.status) && reply.status != 401 && reply.status != 403)
            ==> f == Listed(st, rows, false, [Alert(LoadFailed)])
  {
    match reply
    case Thrown(_) => Listed(st, rows, false, [Alert(LoadFailed)])
    case Answer(status, _, body) =>
      if !Ok(status) then
        if status == 401 || status == 403 then Listed(Cleared, rows, false, [Navigate(LoginPath), Alert(LoadFailed)])
        else Listed(st, rows, false, [Alert(LoadFailed)])
      else if IsAdmin(user) then Listed(st, body.rows, false, [])
      else Listed(st, OwnList(body.available, body.lent, Get(user, "name")), false, [])
  }

  /** The shared settling of a lend or a return: success alerts and
      re-fetches the list with the same user and token; 401 or 403 clears
      storage, redirects and alerts; anything else only alerts. */
  function MutationOutcome(user: Record, token: JsVal, st: Store, request: Request,
                           succeeded: string, failed: string, reply: Reply<JsVal>): (s: Step)
    ensures |s.effects| >= 2 && s.effects[0] == Send(request)
    ensures reply.Answer? && Ok(reply.status)
            ==> s == Step(st, [Send(request), Alert(succeeded), Send(LendListRequest(user, token))])
    ensures reply.Answer? && (reply.status == 401 || reply.status == 403)
            ==> s == Step(Cleared, [Send(request), Navigate(LoginPath), Alert(failed)])
    ensures !(reply.Answer? && (Ok(reply.status) || reply.status == 401 || reply.status == 403))
            ==> s == Step(st, [Send(request), Alert(failed)])
  {
    match reply
    case Thrown(_) => Step(st, [Send(request), Alert(failed)])
    case Answer(status, _, _) =>
      if Ok(status) then Step(st, [Send(request), Alert(succeeded), Send(LendListRequest(user, token))])
      else if status == 401 || status == 403 then Step(Cleared, [Send(request), Navigate(LoginPath), Alert(failed)])
      else Step(st, [Send(request), Alert(failed)])
  }

  /** `handleLend(bookId)`: POST the user's id and the book's id. */
  function HandleLend(user: Record, token: JsVal, st: Store, bookId: JsVal, reply: Reply<JsVal>): (s: Step)
    ensures |s.effects| >= 2 && s.effects[0].Send?
    ensures s.effects[0].request.verb == POST && s.effects[0].request.url == Origin + "/api/lending/lend"
    ensures s.effects[0].request.auth == Some(Bearer(token))
    ensures Field(s.effects[0].request.body, "userId") == Id(user) && Field(s.effects[0].request.body, "bookId") == bookId
    ensures reply.Answer? && Ok(reply.status) ==> s.store == st && s.effects[1] == Alert("Book lent successfully.")
    ensures !(reply.Answer? && Ok(reply.status)) ==> s.effects[|s.effects| - 1] == Alert("Error lending book.")
  {
    var request := Authorized(POST, Origin + "/api/lending/lend", token,
                              Obj(map["userId" := Id(user), "bookId" := bookId]));
    MutationOutcome(user, token, st, request, "Book lent successfully.", "Error lending book.", reply)
  }

  /** `handleReturn(lendingId)`: POST with the lending id in the query. */
  function HandleReturn(user: Record, token: JsVal, st: Store, lendingId: JsVal, reply: Reply<JsVal>): (s: Step)
    ensures |s.effects| >= 2 && s.effects[0].Send?
    ensures s.effects[0].request.verb == POST
    ensures s.effects[0].request.url == Origin + "/api/lending/return?lendingId=" + Text(lendingId)
    ensures s.effects[0].request.body == Undefined
    ensures s.effects[0].request.auth == Some(Bearer(token))
    ensures reply.Answer? && Ok(reply.status) ==> s.store == st && s.effects[1] == Alert("Book returned successfully.")
    ensures !(reply.Answer? && Ok(reply.status)) ==> s.effects[|s.effects| - 1] == Alert("Error returning book.")
  {
    var request := Authorized(POST, Origin + "/api/lending/return?lendingId=" + Text(lendingId), token, Undefined);
    MutationOutcome(user, token, st, request, "Book returned successfully.", "Error returning book.", reply)
  }

  /** A successful lend or return ends by issuing exactly the request the
      page issued on mount for the same session. */
  lemma RefetchRepeatsMount(st: Store, parse: string -> Json, parseInt: JsVal -> JsVal,
                            id: JsVal, text: string, body: JsVal, status: int)
    requires ResolveLendSession(st, parse, parseInt).Ready?
    requires Ok(status)
    ensures var g := ResolveLendSession(st, parse, parseInt);
            var lent := HandleLend(g.user, g.token, st, id, Answer(status, text, body));
            var returned := HandleReturn(g.user, g.token, st, id, Answer(status, text, body));
            && lent.effects[|lent.effects| - 1] == MountLend(st, parse, parseInt).effects[0]
            && returned.effects[|returned.effects| - 1] == MountLend(st, parse, parseInt).effects[0]
  {
  }

  /** A 401 or 403 on the list fetch, a lend or a return clears storage, so
      the page's next mount fails its check and goes to the login screen,
      and so does every list page's gate. */
  lemma LendExpiryForcesLogin(user: Record, token: JsVal, st: Store, rows: seq<Record>, request: Request,
                              parse: string -> Json, parseInt: JsVal -> JsVal, needRole: bool,
                              status: int, text: string, body: LendBody, data: JsVal)
    requires status == 401 || status == 403
    ensures var f := FetchOutcome(user, st, rows, Answer(status, text, body));
            && MountLend(f.store, parse, parseInt) == Step(Cleared, [Navigate(LoginPath)])
            && ResolveSession(f.store, parse, needRole) == Redirect(LoginPath)
    ensures var m := MutationOutcome(user, token, st, request, "", "", Answer(status, text, data));
            && MountLend(m.store, parse, parseInt) == Step(Cleared, [Navigate(LoginPath)])
            && ResolveSession(m.store, parse, needRole) == Redirect(LoginPath)
  {
    assert ReadComposite(Cleared, parse) == NoRecord;
    assert GetItem(Cleared, TokenKey) == Null;
  }
}

=== FILE: lists.dfy ===
/**
 The four list pages (books, authors, publishers, users). They share one
 shape: gate on mount, fetch the collection, search by a trimmed term,
 delete a row after a confirm. What differs between them is data, held
 in a `ListPage`: which storage keys a 401 removes, how a 403 is
 reported, whether a 401 on delete is special, and the alert texts.
 */
module Lists {
  import opened Js
  import opened Storage
  import opened Http
  import opened Session

  /** What a 401 removes from storage. */
  datatype Expiry =
    | DropUserAndToken  // `removeItem("user")` and `removeItem("token")`
    | DropAll           // `localStorage.clear()`

  /** How a 403 on the list fetch is reported. */
  datatype Forbidden =
    | AsFailure     // like any other failed load
    | AccessDenied  // with its own notice naming the page's role

  datatype ListPage = ListPage(
    path: string,                  // collection endpoint below the origin
    searchKeys: seq<string>,       // query parameters the search form can use
    needRole: bool,                // the gate also needs a role
    expiry: Expiry,                // what a 401 on the list fetch removes
    forbidden: Forbidden,
    loadFailed: string,            // alert when the list fetch fails
    deleteExpiry: Option<Expiry>,  // what a 401 on delete removes; None: no special case
    deleted: string,               // alert after a successful delete
    deleteFailed: string)          // alert when the delete fails

  const Books := ListPage(
    "/api/books", ["title", "author", "publisher", "category"], false,
    DropUserAndToken, AsFailure, "Failed to load books. Please try again.",
    None, "Book deleted successfully!", "Failed to delete book. Please try again.")

  const Authors := ListPage(
    "/api/authors", ["name"], false,
    DropUserAndToken, AsFailure, "Failed to load authors. Please try again.",
    Some(DropUserAndToken), "Author deleted successfully!", "Failed to delete author. Please try again.")

  /** The publishers page with its 403 branch working as its code intends. */
  const Publishers := ListPage(
    "/api/publishers", ["name"], false,
    DropUserAndToken, AccessDenied, "Failed to load publishers. Please try again.",
    Some(DropUserAndToken), "Publisher deleted successfully!", "Failed to delete publisher. Please try again.")

  /** The publishers page as its code runs: the 403 branch reads a variable
      that is out of scope, throws, and lands in the generic failure. */
  const PublishersAsWritten := Publishers.(forbidden := AsFailure)

  const Users := ListPage(
    "/api/users", ["term"], true,
    DropAll, AsFailure, "Error loading users. Try again.",
    Some(DropAll), "User deleted successfully!", "Could not delete user.")

  function ExpiredStore(st: Store, e: Expiry): (r: Store)
    ensures e.DropAll? ==> r == Cleared
    ensures e.DropUserAndToken? ==> r.Keys == st.Keys - {UserKey, TokenKey}
    ensures forall k :: k in r ==> k in st && r[k] == st[k]
  {
    match e
    case DropUserAndToken => RemoveItems(st, {UserKey, TokenKey})
    case DropAll => Cleared
  }

  /** Add, Edit and Delete are rendered only for this exact role text. */
  predicate CanManage(role: JsVal) {
    role == Str("ADMIN")
  }

  function ListUrl(page: ListPage): string {
    Origin + page.path
  }

  /** The URL a search submits: a term that trims to nothing fetches the
      whole collection, as Clear does; otherwise the trimmed term, encoded,
      is sent under the chosen key. */
  function SearchUrl(page: ListPage, key: string, term: string, encode: string -> string): (url: string)
    requires key in page.searchKeys
    ensures url == ListUrl(page) <==> AllSpace(term)
    ensures !AllSpace(term) ==> url == ListUrl(page) + "/search?" + key + "=" + encode(Trim(term))
  {
    TrimEmptyIffAllSpace(term);
    var t := Trim(term);
    if t == "" then ListUrl(page)
    else
      var url := ListUrl(page) + "/search?" + key + "=" + encode(t);
      assert |url| > |ListUrl(page)|;
      url
  }

  /** The GET a list page issues, on mount (unfiltered) and on every search. */
  function ListRequest(url: string, token: JsVal): Request {
    Authorized(GET, url, token, Undefined)
  }

  /** What a list page does on mount: a push to the login screen, or the
      unfiltered fetch with the recovered token. */
  function Mount(page: ListPage, st: Store, parse: string -> Json): (effects: seq<Effect>)
    ensures ReadComposite(st, parse).Unreadable? ==> effects == [Navigate(LoginPath)]
    ensures |effects| == 1
    ensures !Sends(effects) ==> effects == [Navigate(LoginPath)]
    ensures Sends(effects) <==> ResolveSession(st, parse, page.needRole).Proceed?
    ensures Sends(effects) ==> effects[0].request.url == ListUrl(page)
                                && effects[0].request.auth == Some(Bearer(RecoveredToken(st, parse)))
  {
    match ResolveSession(st, parse, page.needRole)
    case Redirect(path) => [Navigate(path)]
    case Proceed(token, _) =>
      var effects := [Send(ListRequest(ListUrl(page), token))];
      assert effects[0].Send?;
      effects
  }

  /** The page state a fetch leaves behind. */
  datatype Fetched = Fetched(store: Store, rows: seq<Record>, loading: bool, effects: seq<Effect>)

  function AccessDeniedNotice(role: JsVal): string {
    "Access denied (403). Your role: " + Text(role) + ". Please check your permissions."
  }

  /** The settling of a list fetch, given the rows shown before it and the
      page's role. */
  function FetchOutcome(page: ListPage, role: JsVal, st: Store, rows: seq<Record>,
                        reply: Reply<seq<Record>>): (f: Fetched)
    ensures !f.loading
    ensures reply.Answer? && Ok(reply.status) ==> f == Fetched(st, reply.body, false, [])
    ensures reply.Answer? && reply.status == 401
            ==> f.rows == rows && f.store == ExpiredStore(st, page.expiry)
                && f.effects == [Navigate(LoginPath)]
    ensures !(reply.Answer? && (Ok(reply.status) || reply.status == 401))
            ==> f.rows == rows && f.store == st && !Navigates(f.effects) && |f.effects| == 1
                && f.effects[0].Alert?
    ensures reply.Answer? && reply.status == 403 && page.forbidden.AccessDenied?
            ==> f.effects == [Alert(AccessDeniedNotice(role))]
    ensures reply.Thrown? || (reply.Answer? && !Ok(reply.status) && reply.status != 401
                              && !(reply.status == 403 && page.forbidden.AccessDenied?))
            ==> f.effects == [Alert(page.loadFailed)]
  {
    match reply
    case Thrown(_) => Fetched(st, rows, false, [Alert(page.loadFailed)])
    case Answer(status, _, body) =>
      if Ok(status) then Fetched(st, body, false, [])
      else if status == 401 then Fetched(ExpiredStore(st, page.expiry), rows, false, [Navigate(LoginPath)])
      else if status == 403 && page.forbidden.AccessDenied? then
        Fetched(st, rows, false, [Alert(AccessDeniedNotice(role))])
      else Fetched(st, rows, false, [Alert(page.loadFailed)])
  }

  /** `rows.filter(row => row.id !== id)` */
  function Without(rows: seq<Record>, id: JsVal): (r: seq<Record>)
    ensures |r| <= |rows|
    ensures forall x :: x in r ==> x in rows && !StrictEquals(Id(x), id)
    ensures forall x :: x in rows && !StrictEquals(Id(x), id) ==> x in r
  {
    if rows == [] then []
    else (if StrictEquals(Id(rows[0]), id) then [] else [rows[0]]) + Without(rows[1..], id)
  }

  /** The filter works row by row, so it keeps the surviving rows in their
      original order: filtering a concatenation filters each part. */
  lemma {:induction false} WithoutAppend(a: seq<Record>, b: seq<Record>, id: JsVal)
    ensures Without(a + b, id) == Without(a, id) + Without(b, id)
  {
    if a == [] {
      assert a + b == b;
    } else {
      assert (a + b)[1..] == a[1..] + b;
      WithoutAppend(a[1..], b, id);
    }
  }

  /** Deleting an id no row carries (NaN among them) leaves the list as it was. */
  lemma {:induction false} WithoutAbsent(rows: seq<Record>, id: JsVal)
    requires forall i :: 0 <= i < |rows| ==> !StrictEquals(Id(rows[i]), id)
    ensures Without(rows, id) == rows
  {
    if rows != [] {
      WithoutAbsent(rows[1..], id);
    }
  }

  /** Filtering twice by the same id removes nothing more. */
  lemma {:induction false} WithoutIdempotent(rows: seq<Record>, id: JsVal)
    ensures Without(Without(rows, id), id) == Without(rows, id)
  {
    var r := Without(rows, id);
    forall i | 0 <= i < |r|
      ensures !StrictEquals(Id(r[i]), id)
    {
      assert r[i] in r;
    }
    WithoutAbsent(r, id);
  }

  /** What a delete leaves behind: the storage, the rows and the effects. */
  datatype Deleted = Deleted(store: Store, rows: seq<Record>, effects: seq<Effect>)

  function DeleteRequest(page: ListPage, id: JsVal, token: JsVal): Request {
    Authorized(DELETE, ListUrl(page) + "/" + Text(id), token, Undefined)
  }

  /** `handleDelete(id)`: the confirm answer and the settled DELETE. */
  function DeleteOutcome(page: ListPage, token: JsVal, st: Store, rows: seq<Record>,
                         id: JsVal, confirmed: bool, reply: Reply<JsVal>): (d: Deleted)
    ensures !confirmed ==> d == Deleted(st, rows, [])
    ensures confirmed ==> |d.effects| == 2 && d.effects[0] == Send(DeleteRequest(page, id, token))
    ensures confirmed && reply.Answer? && Ok(reply.status)
            ==> d.store == st && d.rows == Without(rows, id) && d.effects[1] == Alert(page.deleted)
    ensures confirmed && reply.Answer? && reply.status == 401 && page.deleteExpiry.Some?
            ==> d.rows == rows && d.store == ExpiredStore(st, page.deleteExpiry.value)
                && d.effects[1] == Navigate(LoginPath)
    ensures confirmed && !(reply.Answer? && (Ok(reply.status) || (reply.status == 401 && page.deleteExpiry.Some?)))
            ==> d == Deleted(st, rows, [Send(DeleteRequest(page, id, token)), Alert(page.deleteFailed)])
  {
    if !confirmed then Deleted(st, rows, [])
    else
      var sent := Send(DeleteRequest(page, id, token));
      match reply
      case Thrown(_) => Deleted(st, rows, [sent, Alert(page.deleteFailed)])
      case Answer(status, _, _) =>
        if Ok(status) then Deleted(st, Without(rows, id), [sent, Alert(page.deleted)])
        else if status == 401 && page.deleteExpiry.Some? then
          Deleted(ExpiredStore(st, page.deleteExpiry.value), rows, [sent, Navigate(LoginPath)])
        else Deleted(st, rows, [sent, Alert(page.deleteFailed)])
  }

  /** After a 401 on any list fetch, or on a delete of a page that expires
      on delete, no list page or add form can proceed on its next mount:
      both the composite record and the scalar token are gone. The books
      page has no 401 case on delete, so there the session survives. */
  lemma ExpiryForcesLogin(page: ListPage, role: JsVal, token: JsVal, st: Store, rows: seq<Record>, id: JsVal,
                          text: string, body: seq<Record>, data: JsVal, parse: string -> Json, needRole: bool)
    ensures var f := FetchOutcome(page, role, st, rows, Answer(401, text, body));
            ResolveSession(f.store, parse, needRole) == Redirect(LoginPath) && ResolveToken(f.store, parse) == None
    ensures var d := DeleteOutcome(page, token, st, rows, id, true, Answer(401, text, data));
            page.deleteExpiry.Some?
            ==> ResolveSession(d.store, parse, needRole) == Redirect(LoginPath) && ResolveToken(d.store, parse) == None
    ensures DeleteOutcome(Books, token, st, rows, id, true, Answer(401, text, data)).store == st
  {
    ExpiredSessionGone(st, page.expiry, parse, needRole);
    if page.deleteExpiry.Some? {
      ExpiredSessionGone(st, page.deleteExpiry.value, parse, needRole);
    }
  }

  /** Either kind of expiry leaves no record and no scalar token behind. */
  lemma ExpiredSessionGone(st: Store, e: Expiry, parse: string -> Json, needRole: bool)
    ensures ResolveSession(ExpiredStore(st, e), parse, needRole) == Redirect(LoginPath)
    ensures ResolveToken(ExpiredStore(st, e), parse) == None
  {
    var r := ExpiredStore(st, e);
    assert UserKey !in r && TokenKey !in r;
    assert ReadComposite(r, parse) == NoRecord;
  }

  /** A 401 on the books, authors and publishers pages removes only the
      composite record and the scalar token: the scalar role and user id
      survive. On the users page it wipes everything. */
  lemma ExpiryScope(st: Store)
    ensures forall k :: k in st && k != UserKey && k != TokenKey
                        ==> k in ExpiredStore(st, Books.expiry) && ExpiredStore(st, Books.expiry)[k] == st[k]
    ensures Authors.expiry == Books.expiry && Publishers.expiry == Books.expiry
    ensures RoleKey in st ==> RoleKey in ExpiredStore(st, Books.expiry)
    ensures ExpiredStore(st, Users.expiry) == Cleared
  {
  }

  /** The publishers list fetch as its code runs: the 403 branch throws a
      ReferenceError before its alert, so a 403 is reported like any other
      failed load. */
  function PublishersFetchAsWritten(role: JsVal, st: Store, rows: seq<Record>, reply: Reply<seq<Record>>): (f: Fetched)
    ensures reply.Answer? && reply.status == 403 ==> f == Fetched(st, rows, false, [Alert(Publishers.loadFailed)])
  {
    FetchOutcome(PublishersAsWritten, role, st, rows, reply)
  }

  /** The publishers list fetch as intended: a 403 shows the access-denied
      notice naming the role; every other answer is handled exactly as the
      code already handles it. */
  function PublishersFetch(role: JsVal, st: Store, rows: seq<Record>, reply: Reply<seq<Record>>): (f: Fetched)
    ensures reply.Answer? && reply.status == 403 ==> f == Fetched(st, rows, false, [Alert(AccessDeniedNotice(role))])
    ensures !(reply.Answer? && reply.status == 403) ==> f == PublishersFetchAsWritten(role, st, rows, reply)
  {
    FetchOutcome(Publishers, role, st, rows, reply)
  }

  /** A 403 never touches storage, never navigates and never replaces the
      rows on the publishers page, both as written and as intended; the two
      differ only in the alert, and as written the access-denied notice is
      never shown. */
  lemma PublishersForbidden(role: JsVal, st: Store, rows: seq<Record>, text: string, body: seq<Record>)
    ensures var f := FetchOutcome(PublishersAsWritten, role, st, rows, Answer(403, text, body));
            f.store == st && f.rows == rows && !Navigates(f.effects)
            && f.effects == [Alert("Failed to load publishers. Please try again.")]
    ensures var f := FetchOutcome(Publishers, role, st, rows, Answer(403, text, body));
            f.store == st && f.rows == rows && !Navigates(f.effects)
            && f.effects == [Alert(AccessDeniedNotice(role))]
    ensures forall r: Reply<seq<Record>> :: FetchOutcome(PublishersAsWritten, role, st, rows, r).effects
                                            != [Alert(AccessDeniedNotice(role))]
  {
    forall r: Reply<seq<Record>>
      ensures FetchOutcome(PublishersAsWritten, role, st, rows, r).effects != [Alert(AccessDeniedNotice(role))]
    {
      var notice := AccessDeniedNotice(role);
      assert notice[0] == 'A';
      assert PublishersAsWritten.loadFailed[0] == 'F';
    }
  }

  /** Add, Edit and Delete need the role text "ADMIN" exactly: any text
      that has gone through the lower-casing of the signup page (which is
      what the scalar `"userRole"` key holds) never qualifies. */
  lemma ManageIsCaseSensitive(s: string)
    ensures CanManage(Str("ADMIN"))
    ensures !CanManage(Str(Lower(s)))
    ensures forall t :: CanManage(Str(t)) <==> t == "ADMIN"
  {
    assert |Lower(s)| > 0 ==> !('A' <= Lower(s)[0] <= 'Z');
  }
}

=== FILE: search.dfy ===
/**
 The public book search. Blank filters are dropped from the query, the
 kept values are sent untrimmed, no token is sent, and whatever JSON
 comes back replaces the results, whatever the status.
 */
module Search {
  import opened Js
  import opened Http

  /** The four filter inputs, in the order the form declares them. */
  datatype Filters = Filters(title: string, author: string, publisher: string, category: string)

  const FilterKeys := ["title", "author", "publisher", "category"]

  /** The position of a filter key in the form; 4 for any other key. */
  function Rank(key: string): (n: nat)
    ensures n <= 4
    ensures n < 4 ==> FilterKeys[n] == key
    ensures key in FilterKeys ==> n < 4
  {
    if key == "title" then 0
    else if key == "author" then 1
    else if key == "publisher" then 2
    else if key == "category" then 3
    else 4
  }

  /** `Object.entries(filters)`: the keys in declaration order. */
  function Entries(f: Filters): (e: seq<(string, string)>)
    ensures |e| == 4
    ensures forall i :: 0 <= i < 4 ==> e[i].0 == FilterKeys[i]
    ensures e[0].1 == f.title && e[1].1 == f.author && e[2].1 == f.publisher && e[3].1 == f.category
  {
    [("title", f.title), ("author", f.author), ("publisher", f.publisher), ("category", f.category)]
  }

  predicate Ascending(e: seq<(string, string)>) {
    forall i, j :: 0 <= i < j < |e| ==> Rank(e[i].0) < Rank(e[j].0)
  }

  /** `.filter(([_, v]) => v.trim() !== "")` over a run of entries. */
  function Kept(e: seq<(string, string)>): (r: seq<(string, string)>)
    ensures |r| <= |e|
    ensures forall x :: x in r <==> x in e && !AllSpace(x.1)
    ensures (forall x :: x in e ==> AllSpace(x.1)) ==> r == []
  {
    if e == [] then []
    else
      TrimEmptyIffAllSpace(e[0].1);
      if Trim(e[0].1) != "" then [e[0]] + Kept(e[1..]) else Kept(e[1..])
  }

  lemma AscendingTail(e: seq<(string, string)>)
    requires Ascending(e) && e != []
    ensures Ascending(e[1..])
    ensures forall x :: x in e[1..] ==> Rank(e[0].0) < Rank(x.0)
  {
    var tail := e[1..];
    forall i, j | 0 <= i < j < |tail|
      ensures Rank(tail[i].0) < Rank(tail[j].0)
    {
      assert tail[i] == e[i + 1] && tail[j] == e[j + 1];
    }
    forall x | x in tail
      ensures Rank(e[0].0) < Rank(x.0)
    {
      var k :| 0 <= k < |tail| && tail[k] == x;
      assert e[k + 1] == x;
    }
  }

  lemma AscendingCons(h: (string, string), rest: seq<(string, string)>)
    requires Ascending(rest)
    requires forall x :: x in rest ==> Rank(h.0) < Rank(x.0)
    ensures Ascending([h] + rest)
  {
    var r := [h] + rest;
    forall i, j | 0 <= i < j < |r|
      ensures Rank(r[i].0) < Rank(r[j].0)
    {
      assert r[j] == rest[j - 1] && r[j] in rest;
      if i > 0 {
        assert r[i] == rest[i - 1];
      }
    }
  }

  /** Filtering keeps the form order. */
  lemma {:induction false} KeptAscending(e: seq<(string, string)>)
    requires Ascending(e)
    ensures Ascending(Kept(e))
  {
    if e != [] {
      AscendingTail(e);
      KeptAscending(e[1..]);
      TrimEmptyIffAllSpace(e[0].1);
      if Trim(e[0].1) != "" {
        AscendingCons(e[0], Kept(e[1..]));
      }
    }
  }

  /** The entries the query carries: the non-blank filters, untrimmed, in
      form order, each key at most once. */
  function FilterQuery(f: Filters): (q: seq<(string, string)>)
    ensures |q| <= 4
    ensures forall i :: 0 <= i < |q| ==> q[i] in Entries(f) && !AllSpace(q[i].1)
    ensures forall i :: 0 <= i < 4 ==> (!AllSpace(Entries(f)[i].1) <==> Entries(f)[i] in q)
    ensures forall i, j :: 0 <= i < j < |q| ==> Rank(q[i].0) < Rank(q[j].0)
    ensures (forall x :: x in Entries(f) ==> AllSpace(x.1)) ==> q == []
  {
    var e := Entries(f);
    EntriesAscending(f);
    KeptAscending(e);
    KeptByIndex(e);
    Kept(e)
  }

  /** The form's entries come in rank order. */
  lemma EntriesAscending(f: Filters)
    ensures Ascending(Entries(f))
  {
    var e := Entries(f);
    assert forall k :: 0 <= k < 4 ==> Rank(e[k].0) == k;
  }

  /** `Kept`'s membership facts, by position. */
  lemma KeptByIndex(e: seq<(string, string)>)
    ensures forall i :: 0 <= i < |Kept(e)| ==> Kept(e)[i] in e && !AllSpace(Kept(e)[i].1)
    ensures forall i :: 0 <= i < |e| ==> (!AllSpace(e[i].1) <==> e[i] in Kept(e))
  {
    var q := Kept(e);
    assert forall i :: 0 <= i < |q| ==> q[i] in q;
    assert forall i :: 0 <= i < |e| ==> e[i] in e;
  }

  /** The search request: no Authorization header, the query serialised by
      `URLSearchParams.toString` (a parameter here). */
  function SearchRequest(f: Filters, serialize: seq<(string, string)> -> string): (r: Request)
    ensures r.verb == GET && r.auth.None? && r.body == Undefined
    ensures r.url == Origin + "/api/books/search?" + serialize(FilterQuery(f))
  {
    Request(GET, Origin + "/api/books/search?" + serialize(FilterQuery(f)), None, Undefined)
  }

  /** Blank filters are never sent: a form of blanks sends the empty query. */
  lemma BlankFormSendsEmptyQuery(f: Filters, serialize: seq<(string, string)> -> string)
    requires AllSpace(f.title) && AllSpace(f.author) && AllSpace(f.publisher) && AllSpace(f.category)
    ensures FilterQuery(f) == []
    ensures SearchRequest(f, serialize).url == Origin + "/api/books/search?" + serialize([])
  {
    assert forall x :: x in Entries(f) ==> AllSpace(x.1);
  }

  datatype SearchState = SearchState(results: JsVal, loading: bool)

  /** One search: any answer whose body parsed replaces the results, error
      bodies included; a failed fetch or body keeps the old results. The
      spinner always stops. */
  function SearchOutcome(s: SearchState, reply: Reply<JsVal>): (r: SearchState)
    ensures !r.loading
    ensures reply.Answer? ==> r.results == reply.body
    ensures reply.Thrown? ==> r.results == s.results
  {
    match reply
    case Answer(_, _, data) => SearchState(data, false)
    case Thrown(_) => s.(loading := false)
  }

  /** The status is never read: a 500 carrying a body lands in the results
      exactly as a 200 carrying it does. */
  lemma StatusIgnored(s: SearchState, ok: int, failed: int, t1: string, t2: string, body: JsVal)
    requires Ok(ok) && !Ok(failed)
    ensures SearchOutcome(s, Answer(failed, t2, body)) == SearchOutcome(s, Answer(ok, t1, body))
  {
  }
}

=== FILE: session.dfy ===
/**
 Mount-time session resolution of the protected pages. Each page reads
 the composite `"user"` record and falls back, field by field, to the
 scalar `"token"` and `"userRole"` keys; the pages differ in whether a
 role is needed and whether the role is read at all.
 */
module Session {
  import opened Js
  import opened Storage
  import opened Http

  /** What a page finds under the `"user"` key. */
  datatype Composite = NoRecord | Unreadable | Record(v: JsVal)

  /** `if (userData) { try { const user = JSON.parse(userData); … user.token … } catch … }`.
      A missing or empty item is skipped. Text that does not parse, or that
      parses to null (whose `.token` throws inside the same `try`), is
      unreadable. */
  function ReadComposite(st: Store, parse: string -> Json): (c: Composite)
    ensures c.NoRecord? <==> !Truthy(GetItem(st, UserKey))
    ensures c.Record? ==> Readable(c.v) && parse(st[UserKey]) == Value(c.v)
    ensures c.Unreadable? ==> UserKey in st && (parse(st[UserKey]).Malformed? || !Readable(parse(st[UserKey]).v))
  {
    if UserKey !in st || st[UserKey] == "" then NoRecord
    else
      match parse(st[UserKey])
      case Malformed => Unreadable
      case Value(v) => if Readable(v) then Record(v) else Unreadable
  }

  /** A field of the composite record, or null when there is no record. */
  function CompositeField(c: Composite, key: string): JsVal {
    if c.Record? then Field(c.v, key) else Null
  }

  /** The outcome of a page's session check: a router push and nothing
      else, or the page goes on to fetch with this token and role. */
  datatype Gate = Redirect(path: string) | Proceed(token: JsVal, role: JsVal)

  /** The token after the fallback: the composite's, else the scalar key's. */
  function RecoveredToken(st: Store, parse: string -> Json): JsVal {
    Or(CompositeField(ReadComposite(st, parse), "token"), GetItem(st, TokenKey))
  }

  /** The role after the fallback: the composite's, else the scalar key's. */
  function RecoveredRole(st: Store, parse: string -> Json): JsVal {
    Or(CompositeField(ReadComposite(st, parse), "role"), GetItem(st, RoleKey))
  }

  /** The mount effect of the books, authors, publishers and users list
      pages. An unreadable composite sends the page to the login screen
      before any fallback. The token must be recovered; the role must be
      recovered too only when `needRole` holds (the users page). */
  function ResolveSession(st: Store, parse: string -> Json, needRole: bool): (g: Gate)
    ensures ReadComposite(st, parse).Unreadable? ==> g == Redirect(LoginPath)
    ensures g.Redirect? ==> g.path == LoginPath
    ensures g.Proceed? ==> Truthy(g.token) && (needRole ==> Truthy(g.role))
    ensures g.Proceed? ==> g.token == RecoveredToken(st, parse) && g.role == RecoveredRole(st, parse)
    ensures (!ReadComposite(st, parse).Unreadable? && Truthy(RecoveredToken(st, parse))
             && (needRole ==> Truthy(RecoveredRole(st, parse)))) ==> g.Proceed?
  {
    var c := ReadComposite(st, parse);
    if c.Unreadable? then Redirect(LoginPath)
    else
      var token := Or(CompositeField(c, "token"), GetItem(st, TokenKey));
      var role := Or(CompositeField(c, "role"), GetItem(st, RoleKey));
      if !Truthy(token) || (needRole && !Truthy(role)) then Redirect(LoginPath)
      else Proceed(token, role)
  }

  /** The mount check of the add-book and add-author forms: the same
      fallback for the token, and the role is never read. `None` is the
      push to the login screen. */
  function ResolveToken(st: Store, parse: string -> Json): (t: Option<JsVal>)
    ensures t.Some? ==> Truthy(t.value)
  {
    var c := ReadComposite(st, parse);
    if c.Unreadable? then None
    else
      var token := Or(CompositeField(c, "token"), GetItem(st, TokenKey));
      if Truthy(token) then Some(token) else None
  }

  /** The composite's token and role win: when both are set, the scalar
      keys are never consulted, so rewriting them changes nothing. */
  lemma CompositeWins(st: Store, parse: string -> Json, needRole: bool, token: string, role: string)
    requires ReadComposite(st, parse).Record?
    requires Truthy(CompositeField(ReadComposite(st, parse), "token"))
    requires Truthy(CompositeField(ReadComposite(st, parse), "role"))
    ensures ResolveSession(st, parse, needRole)
            == Proceed(CompositeField(ReadComposite(st, parse), "token"),
                       CompositeField(ReadComposite(st, parse), "role"))
    ensures ResolveSession(st[TokenKey := token][RoleKey := role], parse, needRole)
            == ResolveSession(st, parse, needRole)
  {
    var st' := st[TokenKey := token][RoleKey := role];
    assert st'[UserKey] == st[UserKey];
    assert ReadComposite(st', parse) == ReadComposite(st, parse);
  }

  /** When the composite leaves the token falsy, the scalar `"token"` key
      decides: a page proceeds with exactly that text, or redirects when
      it is missing or empty. */
  lemma ScalarTokenFallback(st: Store, parse: string -> Json)
    requires !ReadComposite(st, parse).Unreadable?
    requires !Truthy(CompositeField(ReadComposite(st, parse), "token"))
    ensures ResolveSession(st, parse, false).Proceed?
            <==> TokenKey in st && st[TokenKey] != ""
    ensures ResolveSession(st, parse, false).Proceed?
            ==> ResolveSession(st, parse, false).token == Str(st[TokenKey])
  {
  }

  /** A missing role never stops the pages that do not need one: whether
      they proceed depends on the token alone, and rewriting or removing
      the scalar role leaves that decision and the token unchanged. */
  lemma RoleDoesNotBlock(st: Store, parse: string -> Json, role: string)
    ensures ResolveSession(st, parse, false).Proceed?
            <==> !ReadComposite(st, parse).Unreadable? && Truthy(RecoveredToken(st, parse))
    ensures ResolveSession(st[RoleKey := role], parse, false).Proceed?
            == ResolveSession(st, parse, false).Proceed?
    ensures ResolveSession(RemoveItems(st, {RoleKey}), parse, false).Proceed?
            == ResolveSession(st, parse, false).Proceed?
  {
    var st1 := st[RoleKey := role];
    var st2 := RemoveItems(st, {RoleKey});
    assert UserKey in st1 <==> UserKey in st;
    assert UserKey in st ==> st1[UserKey] == st[UserKey] && st2[UserKey] == st[UserKey];
    assert ReadComposite(st1, parse) == ReadComposite(st, parse);
    assert ReadComposite(st2, parse) == ReadComposite(st, parse);
    assert GetItem(st1, TokenKey) == GetItem(st, TokenKey);
    assert GetItem(st2, TokenKey) == GetItem(st, TokenKey);
  }

  /** The users page is the stricter gate: whenever it proceeds, the other
      list pages proceed with the same token and role, and the add forms
      find the same token. The converse fails exactly when no role is
      recoverable. */
  lemma StricterGate(st: Store, parse: string -> Json)
    ensures ResolveSession(st, parse, true).Proceed?
            ==> ResolveSession(st, parse, false) == ResolveSession(st, parse, true)
    ensures ResolveSession(st, parse, false).Proceed? && !ResolveSession(st, parse, true).Proceed?
            <==> ResolveSession(st, parse, false).Proceed? && !Truthy(RecoveredRole(st, parse))
    ensures ResolveToken(st, parse).Some? <==> ResolveSession(st, parse, false).Proceed?
    ensures ResolveToken(st, parse).Some?
            ==> ResolveToken(st, parse).value == ResolveSession(st, parse, false).token
  {
  }
}

=== FILE: storage.dfy ===
/**
 The browser's `localStorage` as the pages use it: a map from keys to
 strings, read with `getItem`, written with `setItem` (which coerces the
 value to a string), pruned with `removeItem` and wiped with `clear`.
 */
module Storage {
  import opened Js

  type Store = map<string, string>

  /** The composite session record, stored as JSON text. */
  const UserKey := "user"
  /** The bearer token on its own. */
  const TokenKey := "token"
  /** The role on its own (written only at signup, lower-cased). */
  const RoleKey := "userRole"
  /** The user's identifier on its own (written only at login). */
  const UserIdKey := "userId"

  /** `localStorage.getItem(key)`: the stored text, or null when absent. */
  function GetItem(st: Store, key: string): JsVal {
    if key in st then Str(st[key]) else Null
  }

  /** `localStorage.setItem(key, v)` */
  function SetItem(st: Store, key: string, v: JsVal): Store {
    st[key := Text(v)]
  }

  /** A run of `localStorage.removeItem` calls, one per key of `keys`. */
  function RemoveItems(st: Store, keys: set<string>): Store {
    st - keys
  }

  /** `localStorage.clear()` */
  const Cleared: Store := map[]
}
